=== FILE: README.md ===
# Task manager client state layer, in Dafny

This project models the client side of a small task manager (a Next.js/React
web client talking to a REST backend). The model covers the deterministic rules
that sit between the user interface and the network:

- **The gateway** (`src/services/api.ts`):
  - turns HTTP replies into results or error messages;
  - keeps the access/refresh token pair in browser storage;
  - attaches the `Bearer` header;
  - refuses every task and category call when no token is stored.
- **The session store** (`src/contexts/AuthContext.tsx`): `refreshUser`,
  `signup` with its three outcomes, `signin` and `signout`, as transitions of
  `AuthState{user, session, loading, error}`.
- **The task store** (`src/contexts/TaskContext.tsx`):
  - `loadTasks`;
  - the write-then-refetch `createTask`/`updateTask`/`deleteTask`;
  - the filter setters;
  - the derived `filteredTasks` view, a three-stage order-preserving filter
    pipeline (status, then case-insensitive search, then exact category).
- **The category store** (`src/contexts/CategoryContext.tsx`): `loadCategories`,
  and `createCategory`, which returns the created record.
- **The component logic**:
  - the new-task form's submit (`TaskForm.tsx`): trimming, omission of empty
    fields, new category before task, the priority guard;
  - the dashboard counters and completion rate (`Stats.tsx`);
  - the task list's own status filter and empty state (`TaskList.tsx`);
  - the completion toggle (`TaskItem.tsx`).

Every operation is a pure function. It takes the current state and storage plus
the server's reply, passed in as a `Delivery`: either a network failure or an
HTTP response with status, body and optional `error` member. It returns the new
state, the new storage, the requests issued in order, and the error it
rethrows, if any. Browser storage is a `map<string, string>`. JavaScript
truthiness of an optional string (present and non-empty) is `Truthy`.

| module | file | models |
|---|---|---|
| `Outcomes` | outcomes.dfy | `Option`, `Result`, JavaScript string truthiness |
| `Text` | text.dfy | `trim`, `toLowerCase`, `includes`, decimal rendering of a status code |
| `Types` | types.dfy | the `Task`, `Category`, `User`, `Session` records and the priority names |
| `Api` | api.dfy | the gateway |
| `Filters` | filters.dfy | `Array.prototype.filter` with named criteria, and the subsequence/partition facts about it |
| `Auth` | auth.dfy | the session store |
| `TaskStore` | task_store.dfy | the task store and `filteredTasks` |
| `CategoryStore` | category_store.dfy | the category store |
| `Stats` | stats.dfy | the dashboard counters |
| `TaskList` | task_list.dfy | the task list component |
| `TaskItem` | task_item.dfy | the task row and its toggle |
| `TaskForm` | task_form.dfy | the new-task form |

Behaviour the proofs make explicit:

- **Offline signout keeps the tokens.** `signout` removes the tokens only after
  `fetch` has resolved. When the request never reaches the server, the session
  store ends signed out but both tokens stay in storage. The next page load then
  signs the user back in (`Auth.OfflineSignoutIsUndoneByReload`).
- **A 401 does not touch the session store.** A 401 on a task or category call
  clears the tokens, but the session store's in-memory user is untouched. The
  store reaches the signed-out state only through the redirect's fresh page
  load (`Auth.UnauthorizedThenReloadSignsOut`).
- **A rate of 100% does not mean all tasks are done.** The completion rate is
  rounded: it reads 100 exactly when at least 99.5% of the tasks are completed.
  With 200 of 201 tasks completed it already shows 100
  (`Stats.RateFullIff`, `Stats.RateFullWithActiveTask`).
- **The new task uses the typed category name.** When the form creates a new
  category, the task is sent with the trimmed name the user typed, not with the
  name in the record the server returns.
- **A retry creates the category again.** If the category is created but the
  task then fails, the form still asks for the new category. The next submit
  creates it again (`TaskForm.RetryRecreatesCategory`).
- **The list and the store filter differently.** The task list filters the
  store's full task list by its own `filter` prop. The store's search and
  category filters do not apply to it (`TaskList.RenderIgnoresStoreFilters`,
  `TaskList.ListedDespiteSearch`).

## Model

| member | source | states |
|---|---|---|
| Text.Trim | src/contexts/TaskContext.tsx:137-138 | the trimmed string is empty exactly when the input is all whitespace, otherwise it starts and ends with a non-space |
| Text.TrimInner | src/contexts/TaskContext.tsx:137-138 | a string holding a non-space character trims to exactly the text between its leading and its trailing whitespace runs |
| Text.TrimSplit | src/contexts/TaskContext.tsx:137 | the input is whitespace, then its trim, then whitespace |
| Text.TrimIdempotent | src/components/TaskForm.tsx:37-40 | trimming an already trimmed name changes nothing |
| Text.ToLower | src/contexts/TaskContext.tsx:138-141 | lower-casing keeps the length and maps each character independently |
| Text.LowerIdempotent | src/contexts/TaskContext.tsx:138-141 | lower-casing an already lower-cased query changes nothing |
| Text.LowerTrimCommute | src/contexts/TaskContext.tsx:138 | lower-casing then trimming equals trimming then lower-casing |
| Text.ContainsIff | src/contexts/TaskContext.tsx:140-141 | `includes` holds exactly when the query occurs at some position |
| Text.Decimal | src/services/api.ts:39 | the status code renders as a non-empty digit string without leading zeros |
| Text.DecimalRoundTrip | src/services/api.ts:39 | the rendered status code reads back as the same number |
| Text.DecimalInjective | src/services/api.ts:39 | different status codes render differently |
| Types.ParsePriority | src/components/TaskForm.tsx:207-211 | a priority is recognised exactly for `low`, `medium` and `high`, and names that string |
| Types.PriorityRoundTrip | src/components/TaskForm.tsx:216-218 | every offered option parses back to its priority |
| Api.AuthHeader | src/services/api.ts:20-26 | a header is added exactly when a non-empty access token is stored |
| Api.IsAuthenticated | src/services/api.ts:273-275 | authenticated exactly when the stored access token is present and non-empty (`!!`) |
| Api.BearerCarriesToken | src/services/api.ts:24 | the header is `Bearer ` followed by the stored token verbatim |
| Api.ClearTokens | src/services/api.ts:33-34 | both tokens are removed, every other key is kept with its value, and the client is then unauthenticated |
| Api.ClearTokensIdempotent | src/services/api.ts:87-90 | clearing twice is clearing once |
| Api.StoreSession | src/services/api.ts:55-58 | both tokens are stored exactly when the session has a non-empty access token, other keys kept; otherwise storage is unchanged |
| Api.StatusMessage | src/services/api.ts:39 | the fallback text is `HTTP error! status: ` followed by decimal digits that read back as the status code |
| Api.StatusMessageInjective | src/services/api.ts:39 | the fallback messages of different status codes differ |
| Api.HandleResponse | src/services/api.ts:28-42 | a 2xx reply yields its body with storage unchanged; a 401 clears both tokens and fails with the authentication message whatever the body; other statuses fail with a truthy `error` member or the status fallback |
| Api.Fetch | src/services/api.ts:93-97 | exactly one request is issued; success exactly for a delivered 2xx; a network failure rejects with its reason without touching storage; a reply is whatever `handleResponse` makes of it |
| Api.Gated | src/services/api.ts:137-145 | without a token nothing is sent and the call fails with the authentication message; success exactly when a token is stored and a 2xx arrives; a failure clears the tokens only on a 401 and rejects with the network reason or `handleResponse`'s message |
| Api.Signup | src/services/api.ts:45-61 | no token is sent; succeeds exactly on a delivered 2xx, persisting the tokens of a session with an access token; a failure is what `fetch` and `handleResponse` make of it |
| Api.Signin | src/services/api.ts:63-79 | as sign-up, against `/auth/signin`: succeeds exactly on a delivered 2xx and persists a returned session's tokens |
| Api.RefreshSession | src/services/api.ts:100-116 | the refresh token is sent; succeeds exactly on a delivered 2xx, and a returned session is persisted by the same rule |
| Api.Signout | src/services/api.ts:81-91 | the request carries the token held beforehand; once any reply arrives both tokens are gone, even for an error status, and the reply is then judged on the cleared storage; a network failure leaves them and rejects with its reason |
| Api.GetCurrentUser | src/services/api.ts:93-98 | not gated: sends whatever header storage allows; success exactly for a delivered 2xx; a failure is what `fetch` and `handleResponse` make of it |
| Api.ForgotPassword | src/services/api.ts:118-125 | posts the e-mail without a token; succeeds exactly on a delivered 2xx; the outcome is what `fetch` and `handleResponse` make of the reply |
| Api.ResetPassword | src/services/api.ts:127-134 | posts e-mail, token and new password without a bearer token; succeeds exactly on a delivered 2xx; the outcome is what `fetch` and `handleResponse` make of the reply |
| Api.GetTasks | src/services/api.ts:137-146 | the authentication gate, then `GET /tasks` with the bearer header; a failure clears the tokens only on a 401 and carries the gate's, the network's or `handleResponse`'s message |
| Api.GetTask | src/services/api.ts:148-157 | the gate, then `GET /tasks/<id>` |
| Api.CreateTask | src/services/api.ts:159-177 | the gate, then `POST /tasks` with the draft |
| Api.UpdateTask | src/services/api.ts:179-200 | the gate, then `PUT /tasks/<id>` with only the patch's fields |
| Api.DeleteTask | src/services/api.ts:202-212 | the gate, then `DELETE /tasks/<id>` |
| Api.GetTasksByStatus | src/services/api.ts:214-223 | the gate, then `GET /tasks/status/<status>` |
| Api.GetTasksByPriority | src/services/api.ts:225-234 | the gate, then `GET /tasks/priority/<priority>` |
| Api.GetCategories | src/services/api.ts:237-246 | the gate, then `GET /categories` |
| Api.CreateCategory | src/services/api.ts:248-259 | the gate, then `POST /categories` with the name |
| Api.GetTasksByCategory | src/services/api.ts:261-270 | the gate, then `GET /tasks/category/<encoded name>` |
| Api.UnauthorizedLogsOut | src/services/api.ts:32-36 | after a 401 on any gated call no token remains and the call fails with the authentication message |
| Filters.IsCompleted | src/components/TaskItem.tsx:12 | a task counts as done exactly when its status is `completed`; every other status (`pending`, `in_progress`, `cancelled`) counts as not done |
| Filters.Select | src/contexts/TaskContext.tsx:131-147 | a task is kept exactly when it was in the list and the criterion holds for it |
| Filters.MatchesQuery | src/contexts/TaskContext.tsx:139-142 | the lower-cased title contains the query, or a truthy description does once lower-cased |
| Filters.SelectPositions | src/contexts/TaskContext.tsx:127-150 | the result is the input read at exactly the positions where the criterion holds, in increasing order |
| Filters.SelectTwice | src/contexts/TaskContext.tsx:127-150 | two filters in sequence equal one filter by their conjunction |
| Filters.SelectKeepsAll | src/contexts/TaskContext.tsx:130-134 | a filter returns the whole list exactly when its criterion holds for every element |
| Filters.SelectAny | src/contexts/TaskContext.tsx:127 | the trivial criterion keeps the list as it is |
| Filters.SelectSplits | src/contexts/TaskContext.tsx:130-134 | two criteria that disagree on every element split the list between them, as multisets and in length |
| Filters.ActiveCompletedComplementary | src/contexts/TaskContext.tsx:131-133 | every task is in exactly one of the `active` and `completed` views |
| Auth.RefreshUser | src/contexts/AuthContext.tsx:36-63 | without a token only `loading` clears and nothing is sent; success adopts the user, clears the error and leaves the session; failure clears both tokens and ends signed out with no error |
| Auth.Mount | src/contexts/AuthContext.tsx:157-160 | from the initial state the store settles with a user exactly when a token is stored and `/auth/me` succeeds |
| Auth.Signup | src/contexts/AuthContext.tsx:65-110 | user and session sign in; an e-mail confirmation request ends signed out without error or throw; anything else fails with the fixed message; any successful reply stores the session's tokens whichever branch follows; a failed reply keeps the identity; the recorded error is what is thrown |
| Auth.Signin | src/contexts/AuthContext.tsx:112-131 | success adopts user and session; failure records and rethrows the network reason or `handleResponse`'s message and keeps user and session |
| Auth.Signout | src/contexts/AuthContext.tsx:133-155 | always ends signed out without throwing; tokens are removed whenever a reply arrived |
| Auth.OfflineSignoutIsUndoneByReload | src/services/api.ts:81-90 | a sign-out that never reaches the server leaves the tokens, and the next mount signs the user back in |
| Auth.UnauthorizedThenReloadSignsOut | src/services/api.ts:32-36 | after a 401 the redirected page load ends signed out without asking the server |
| TaskStore.LoadTasks | src/contexts/TaskContext.tsx:37-52 | a no-op unless the session is ready; success replaces the list wholesale (absent reads as empty) and clears the error; failure empties it with the load message and drops the tokens only on a 401; loading ends false; filters untouched |
| TaskStore.WriteThenRefetch | src/contexts/TaskContext.tsx:63-106 | it throws exactly when the write failed; the write's requests come first and the filters are kept; a failed write leaves the list and the write's storage; a successful one clears the error, and then either sends nothing more (session not ready) or ends not loading with no error exactly when the reload succeeds |
| TaskStore.CreateTask | src/contexts/TaskContext.tsx:63-80 | throws exactly when the write does not succeed, rethrowing the gateway's message and dropping the tokens only on a 401; success reloads after the post, with the storage the reload leaves; failure leaves the list and records the create message |
| TaskStore.UpdateTask | src/contexts/TaskContext.tsx:82-93 | as create, with `PUT` and the update message |
| TaskStore.DeleteTask | src/contexts/TaskContext.tsx:95-106 | as create, with `DELETE` and the delete message |
| TaskStore.NoLocalPatch | src/contexts/TaskContext.tsx:63-80 | after a successful create the store does not depend on which draft was posted, and a skipped reload leaves the list unchanged: nothing is merged locally |
| TaskStore.SetFilter | src/contexts/TaskContext.tsx:113-115 | only the status view changes |
| TaskStore.SetSearch | src/contexts/TaskContext.tsx:117-119 | only the query changes |
| TaskStore.SetCategoryFilter | src/contexts/TaskContext.tsx:121-123 | only the category filter changes |
| TaskStore.FilteredTasks | src/contexts/TaskContext.tsx:126-151 | the view is no longer than the list and holds only listed tasks |
| TaskStore.FilteredIsOneSelection | src/contexts/TaskContext.tsx:126-151 | the three stages compose as a single filter by their conjunction |
| TaskStore.CriteriaHolds | src/contexts/TaskContext.tsx:130-148 | the combined criterion holds for a task exactly when it passes the status view, the search when the query is non-blank, and the category when the filter is truthy |
| TaskStore.FilteredMembership | src/contexts/TaskContext.tsx:130-148 | a task is shown exactly when listed, in the status view, matching a non-blank query and equal to a truthy category filter |
| TaskStore.FilteredKeepsOrder | src/contexts/TaskContext.tsx:127-150 | the view is the list read at exactly the passing positions, in order |
| TaskStore.StatusViewsPartition | src/contexts/TaskContext.tsx:130-134 | with no search and no category, `active` and `completed` are disjoint and together hold every task exactly once |
| TaskStore.DefaultViewShowsAll | src/contexts/TaskContext.tsx:127-134 | the default filter state shows the whole list |
| TaskStore.SearchApplies | src/contexts/TaskContext.tsx:137 | the search stage runs only for a query that is not blank once trimmed |
| TaskStore.Query | src/contexts/TaskContext.tsx:138 | the query is compared lower-cased and trimmed |
| TaskStore.SearchIgnoresSurroundingSpace | src/contexts/TaskContext.tsx:137-138 | spaces around the typed query do not change the filtered list |
| TaskStore.SearchIgnoresCase | src/contexts/TaskContext.tsx:137-143 | queries that differ only in letter case show the same tasks |
| TaskStore.CategoryFilterIsExact | src/contexts/TaskContext.tsx:146-148 | under a truthy category filter, a task passing the other stages is shown exactly when its category is equal |
| CategoryStore.LoadCategories | src/contexts/CategoryContext.tsx:25-40 | a no-op unless the session is ready; success replaces the list wholesale and clears the error; failure empties it with the load message and drops the tokens only on a 401; never rejects |
| CategoryStore.CreateCategory | src/contexts/CategoryContext.tsx:42-53 | succeeds exactly when the post does; success reloads, with the storage the reload leaves, and returns the server's record; failure records the create message, leaves the list and rethrows the gateway's message |
| Stats.CompletionRate | src/components/Stats.tsx:45 | 0 for no tasks; otherwise the integer nearest to 100·completed/total, halves up, within 0..100 |
| Stats.Summarize | src/components/Stats.tsx:40-45 | total is the list length, completed counts the completed tasks, active and completed sum to total, and the rate is the rounded percentage of completed tasks |
| Stats.ActiveCountsActiveTasks | src/components/Stats.tsx:43-44 | the active figure is the number of tasks whose status is not completed |
| Stats.RateFullIff | src/components/Stats.tsx:45 | the rate reads 100 exactly when 200·completed ≥ 199·total |
| Stats.RateZeroIff | src/components/Stats.tsx:45 | the rate reads 0 exactly when 200·completed < total |
| Stats.RateAtTheEnds | src/components/Stats.tsx:43-45 | all completed gives 100, none completed gives 0 |
| Stats.RateFullWithActiveTask | src/components/Stats.tsx:45 | 200 of 201 completed already reads 100 |
| Stats.Display | src/components/Stats.tsx:11-45 | placeholders while the session loads; nothing without a user; `...` exactly while tasks load; otherwise the figures, which are the summary of the whole task list |
| Stats.FiguresIgnoreFilters | src/components/Stats.tsx:40-45 | the figures do not depend on the status view, search or category filter |
| TaskList.ViewOf | src/components/TaskList.tsx:11 | an omitted `filter` prop means `all` |
| TaskList.Visible | src/components/TaskList.tsx:16-21 | a task is listed exactly when held by the store and in the prop's status view |
| TaskList.EmptyHeading | src/components/TaskList.tsx:84-86 | "No", then the prop's value and a space unless it is `all`, then "tasks found" |
| TaskList.EmptyHeadingsDiffer | src/components/TaskList.tsx:84-86 | each view has its own empty-state heading |
| TaskList.Render | src/components/TaskList.tsx:23-103 | skeleton while the session loads; nothing without a user; the spinner while tasks load; the error panel exactly for a truthy store error; the empty state with its heading exactly when no task is in the view; otherwise exactly the rows of the view |
| TaskList.VisibleIsStatusStage | src/components/TaskList.tsx:16-21 | the list's filter coincides with the store's status stage, `all` included |
| TaskList.VisibleKeepsOrder | src/components/TaskList.tsx:16-21 | the rows are the store's tasks at exactly the positions in the view, in order |
| TaskList.RenderIgnoresStoreFilters | src/components/TaskList.tsx:11-21 | the rendering does not depend on the store's search or category filter |
| TaskList.ListedDespiteSearch | src/components/TaskList.tsx:13-21 | a task the search hides from `filteredTasks` is still listed |
| TaskList.FilteredIsListed | src/components/TaskList.tsx:13-21 | every task of `filteredTasks` is listed under the same status view |
| TaskItem.ToggledStatus | src/components/TaskItem.tsx:12-16 | a completed task goes to pending; every other status goes to completed |
| TaskItem.ToggleChanges | src/components/TaskItem.tsx:17 | the update carries the new status and no other field |
| TaskItem.Toggle | src/components/TaskItem.tsx:15-18 | the first request is `PUT /tasks/<own id>` with that update; it fails exactly when the write does; its whole effect is the store's `updateTask` with the flipped status |
| TaskItem.Remove | src/components/TaskItem.tsx:75 | the first request is `DELETE /tasks/<own id>`; its whole effect is the store's `deleteTask` of the row's task |
| TaskItem.ToggleFlips | src/components/TaskItem.tsx:12-25 | the toggle always flips the checkbox |
| TaskItem.ToggleTwice | src/components/TaskItem.tsx:16 | toggling twice restores completed and pending tasks only; in-progress and cancelled come back pending |
| TaskForm.SetPriority | src/components/TaskForm.tsx:207-211 | only `low`, `medium`, `high` change the priority, to the named one; nothing else in the form changes |
| TaskForm.EveryOptionSelects | src/components/TaskForm.tsx:207-219 | each offered option selects its priority |
| TaskForm.OmitEmpty | src/components/TaskForm.tsx:51-54 | an empty string is omitted, any other is sent as is |
| TaskForm.WantsNewCategory | src/components/TaskForm.tsx:37 | a category is created on submit only when its input is showing and the name is not blank once trimmed |
| TaskForm.DraftFor | src/components/TaskForm.tsx:35-55 | title trimmed; description trimmed and omitted when blank; priority sent, status not; the due date sent as typed unless empty; the category is the trimmed new name when one is wanted, else the selection, omitted when empty |
| TaskForm.OpenNewCategory | src/components/TaskForm.tsx:77-80 | shows the name input and drops the selection, nothing else |
| TaskForm.CancelNewCategory | src/components/TaskForm.tsx:82-85 | hides the name input and forgets the name, nothing else |
| TaskForm.CancelledCategoryIsNotCreated | src/components/TaskForm.tsx:82-85 | after cancelling, no category is created and the selection is sent |
| TaskForm.BlankNewCategorySendsNone | src/components/TaskForm.tsx:77-80 | after "+ New" with a blank name the task goes out without a category |
| TaskForm.AddTask | src/components/TaskForm.tsx:49-74 | closes exactly when the task is created, then with every field reset; otherwise keeps the fields and shows the message the store rethrew; the post carries the form's payload; the task list, storage and requests are those of the store's create (the post, then the reload), the categories untouched |
| TaskForm.WithNewCategory | src/components/TaskForm.tsx:37-55 | the category is posted first; its failure shows the category message, posts no task and leaves the category store's result; once it exists the task is posted next with the storage it left, the form closes exactly when that succeeds, and the storage is the one the task creation leaves |
| TaskForm.Submit | src/components/TaskForm.tsx:27-75 | a blank title does nothing; a wanted category is posted before the task; its failure shows the category message and posts no task; once it exists the task is posted next and the form closes exactly when that succeeds; without a new category the categories are untouched and the storage and requests are exactly the task creation's; closing resets the form; an open form keeps its fields and shows the thrown message |
| TaskForm.RetryRecreatesCategory | src/components/TaskForm.tsx:37-71 | after a task failure the form still asks for the same new category, so a resubmit creates it again |

## Left out

- Rendering, CSS and layout, the header, sidebar, breadcrumb and quick actions, and routing (`router.push`, the `window.location.href` redirect of a 401). The redirect is represented by starting a fresh session store (`Auth.Mount`).
- Real `fetch`, JSON parsing and `console.error`. Replies are parameters. An error body that is not JSON is the same as one without an `error` member. A 2xx body that fails to parse is not modelled, because the parse is the browser's.
- `localStorage` is an abstract map; its quota and availability are not modelled.
- React scheduling (`useEffect`, `useMemo`, batching of state updates). The task store registers its load effect twice, so the number of loads per login is not claimed.
- Overlapping asynchronous calls and their races: every operation is one atomic step from its inputs.
- Unicode: `trim` removes ASCII whitespace only, and `toLowerCase` maps ASCII capitals only. `encodeURIComponent` is a parameter of `Api.GetTasksByCategory`.
- Stats.CompletionRate: rounds exactly, whereas the source computes `Math.round(completed / total * 100)` in floating point, which can round down a value that is mathematically a half (29 of 200 shows 14 there, 15 here).
- `getAccessToken`/`getRefreshToken` (plain storage reads) and the API base URL.
- The reset-password page and its token parsing, and the search-and-filter panel, which only forwards values to the store setters.
- `refreshTasks` and `refreshCategories`: both are `loadTasks`/`loadCategories` under another name.
- The "Failed to create task", "Signup failed" and "Signin failed" fallbacks for a thrown value that is not an `Error`: every failure in the model carries a message.
- TaskItem.Toggle: the returned promise is not awaited by the row, so a failed toggle also surfaces as an unhandled rejection; the model gives the store's result and nothing of the rejection.
- `updateTask` accepts any `Partial<Task>`; the model's `TaskPatch` has six optional fields (title, description, status, priority, due date, category), so a patch of any other `Task` field, such as its id or timestamps, is not modelled.
- An `error` member of a failed reply that is truthy but not a string: the model's reply carries an optional string, so such a value is not modelled.
- Timestamps, dates and their formatting: they are opaque strings.
- An explicit signout removes the tokens only once a reply arrives, and a 401 on a task or category call clears the tokens but leaves the session store's user in place until the page reloads; the model does the same and does not tie the two stores together.
- The form sends the task with the trimmed category name it typed, not the name in the record `createCategory` returns; the model does the same.

=== FILE: api.dfy ===
/**
 The HTTP gateway of src/services/api.ts: the single place that talks to the
 backend. The browser's `localStorage` is an explicit key/value map that every
 call takes and returns, and the server's reply to each request is a
 parameter, so each wrapper is a pure function from (storage, arguments,
 reply) to (storage, requests sent, outcome).
 */
module Api {
  import opened Outcomes
  import opened Text
  import opened Types

  /** Durable client storage (`localStorage`). */
  type Storage = map<string, string>

  const AccessTokenKey: string := "access_token"
  const RefreshTokenKey: string := "refresh_token"

  /** The message of every authentication failure raised by the gateway. */
  const AuthRequired: string := "Authentication required. Please log in."

  /** A reply that reached the client. `body` is the parsed JSON of a
      successful reply; `errorField` is the `error` member of the error body,
      absent when that body did not parse as JSON or has no such member. */
  datatype HttpResponse<T> = HttpResponse(status: nat, body: T, errorField: Option<string>)

  /** `response.ok`: a 2xx status. */
  predicate IsOk<T>(r: HttpResponse<T>) {
    200 <= r.status <= 299
  }

  /** What a `fetch` gives back: it rejects when no reply arrives at all. */
  datatype Delivery<T> = NetworkError(reason: string) | Delivered(response: HttpResponse<T>)

  datatype Method = Get | Post | Put | Delete

  /** The fields `createTask` serialises; an absent field is left out of the JSON. */
  datatype TaskDraft = TaskDraft(
    title: string,
    description: Option<string>,
    status: Option<Status>,
    priority: Option<Priority>,
    dueDate: Option<string>,
    category: Option<string>)

  /** A partial update: only the present fields are sent. */
  datatype TaskPatch = TaskPatch(
    title: Option<string>,
    description: Option<string>,
    status: Option<Status>,
    priority: Option<Priority>,
    dueDate: Option<string>,
    category: Option<string>)

  const EmptyPatch := TaskPatch(None, None, None, None, None, None)

  datatype Body =
    | NoBody
    | Credentials(email: string, password: string)
    | RefreshBody(refreshToken: string)
    | EmailBody(email: string)
    | ResetBody(resetEmail: string, token: string, newPassword: string)
    | NewTask(draft: TaskDraft)
    | TaskChanges(patch: TaskPatch)
    | NewCategory(name: string)

  /** A request as issued; the path is relative to the configured API base
      URL and `authorization` is the value of the `Authorization` header. */
  datatype Request = Request(verb: Method, path: string, authorization: Option<string>, body: Body)

  /** The result of one gateway call: the storage afterwards, the requests
      issued (none when the call fails before reaching `fetch`) and the outcome. */
  datatype Exchange<T> = Exchange(store: Storage, sent: seq<Request>, result: Result<T>)

  datatype AuthBody = AuthBody(user: Option<User>, session: Option<Session>, requiresEmailConfirmation: bool)
  datatype MeBody = MeBody(user: User)
  datatype SessionBody = SessionBody(session: Option<Session>)
  datatype MessageBody = MessageBody(message: string)
  datatype TasksBody = TasksBody(tasks: Option<seq<Task>>)
  datatype TaskBody = TaskBody(task: Task)
  datatype CategoriesBody = CategoriesBody(categories: Option<seq<Category>>)
  datatype CategoryBody = CategoryBody(category: Category)

  /** `isAuthenticated()`: a non-empty access token is stored. */
  predicate IsAuthenticated(store: Storage) {
    AccessTokenKey in store && store[AccessTokenKey] != ""
  }

  /** The `Authorization` header `getAuthHeaders` adds, if any. */
  function AuthHeader(store: Storage): (h: Option<string>)
    ensures h.Some? <==> IsAuthenticated(store)
  {
    if IsAuthenticated(store) then Some("Bearer " + store[AccessTokenKey]) else None
  }

  /** The header carries the stored token verbatim after the `Bearer ` scheme. */
  lemma BearerCarriesToken(store: Storage)
    requires IsAuthenticated(store)
    ensures AuthHeader(store).value[..7] == "Bearer "
    ensures AuthHeader(store).value[7..] == store[AccessTokenKey]
  {
  }

  /** Removes both tokens and nothing else. */
  function ClearTokens(store: Storage): (s: Storage)
    ensures AccessTokenKey !in s && RefreshTokenKey !in s
    ensures !IsAuthenticated(s)
    ensures forall k :: k in s <==> k in store && k != AccessTokenKey && k != RefreshTokenKey
    ensures forall k :: k in s ==> s[k] == store[k]
  {
    store - {AccessTokenKey, RefreshTokenKey}
  }

  /** Clearing already-cleared storage changes nothing, so a second 401 (or
      a 401 followed by a local clean-up) has the effect of one. */
  lemma ClearTokensIdempotent(store: Storage)
    ensures ClearTokens(ClearTokens(store)) == ClearTokens(store)
  {
  }

  /** A session is persisted only when it carries a truthy access token. */
  predicate Persistable(session: Option<Session>) {
    session.Some? && session.value.accessToken != ""
  }

  /** Persists both tokens of a session that has an access token, replacing
      any earlier pair; otherwise leaves storage alone. */
  function StoreSession(store: Storage, session: Option<Session>): (s: Storage)
    ensures !Persistable(session) ==> s == store
    ensures Persistable(session) ==>
      && s.Keys == store.Keys + {AccessTokenKey, RefreshTokenKey}
      && IsAuthenticated(s)
      && s[AccessTokenKey] == session.value.accessToken
      && s[RefreshTokenKey] == session.value.refreshToken
      && forall k :: k in store && k != AccessTokenKey && k != RefreshTokenKey ==> s[k] == store[k]
  {
    if Persistable(session) then
      store[AccessTokenKey := session.value.accessToken][RefreshTokenKey := session.value.refreshToken]
    else store
  }

  /** The fallback message for an error reply without a usable `error` member. */
  function StatusMessage(status: nat): (m: string)
    ensures |m| > 20 && m[..20] == "HTTP error! status: "
    ensures forall k :: 20 <= k < |m| ==> IsDigit(m[k])
    ensures DecimalValue(m[20..]) == status
  {
    DecimalRoundTrip(status);
    var m := "HTTP error! status: " + Decimal(status);
    assert m[20..] == Decimal(status);
    m
  }

  /** Two different status codes never produce the same fallback message. */
  lemma StatusMessageInjective(a: nat, b: nat)
    requires a != b
    ensures StatusMessage(a) != StatusMessage(b)
  {
    DecimalInjective(a, b);
    assert StatusMessage(a)[20..] == Decimal(a);
    assert StatusMessage(b)[20..] == Decimal(b);
  }

  /** `handleResponse`: a 2xx reply yields its body; a 401 clears both tokens
      and fails with the authentication message whatever the body said; any
      other status fails with the body's `error` if truthy, else the status. */
  function HandleResponse<T>(store: Storage, r: HttpResponse<T>): (x: (Storage, Result<T>))
    ensures IsOk(r) ==> x == (store, Ok(r.body))
    ensures r.status == 401 ==> x == (ClearTokens(store), Err(AuthRequired))
    ensures !IsOk(r) && r.status != 401 ==> x.0 == store
    ensures !IsOk(r) && r.status != 401 && Truthy(r.errorField) ==> x.1 == Err(r.errorField.value)
    ensures !IsOk(r) && r.status != 401 && !Truthy(r.errorField) ==> x.1 == Err(StatusMessage(r.status))
  {
    if IsOk(r) then (store, Ok(r.body))
    else if r.status == 401 then (ClearTokens(store), Err(AuthRequired))
    else if Truthy(r.errorField) then (store, Err(r.errorField.value))
    else (store, Err(StatusMessage(r.status)))
  }

  /** The storage and outcome of a request once `fetch` settles: a network
      failure rejects with its own reason and touches nothing; a reply goes
      through `handleResponse`. */
  ghost predicate Replied<T>(store: Storage, d: Delivery<T>, x: Exchange<T>) {
    match d
    case NetworkError(reason) => x.store == store && x.result == Err(reason)
    case Delivered(r) => (x.store, x.result) == HandleResponse(store, r)
  }

  /** A token was sent and the server answered 401. */
  predicate Unauthorized<T>(store: Storage, d: Delivery<T>) {
    IsAuthenticated(store) && d.Delivered? && d.response.status == 401
  }

  /** The storage a task or category call leaves when it does not succeed:
      the tokens are cleared on a 401 and on nothing else. */
  function StoreAfterFailure<T>(store: Storage, d: Delivery<T>): Storage {
    if Unauthorized(store, d) then ClearTokens(store) else store
  }

  /** The message a task or category call rejects with when it does not
      succeed: the gate's message, the network failure's reason, or what
      `handleResponse` makes of the reply. */
  function FailureMessage<T>(store: Storage, d: Delivery<T>): string
    requires !Succeeds(store, d)
  {
    if !IsAuthenticated(store) then AuthRequired
    else match d
      case NetworkError(reason) => reason
      case Delivered(r) => HandleResponse(store, r).1.message
  }

  /** Issues `req`; a network failure rejects before `handleResponse` runs. */
  function Fetch<T>(store: Storage, req: Request, d: Delivery<T>): (x: Exchange<T>)
    ensures x.sent == [req]
    ensures x.result.Ok? <==> d.Delivered? && IsOk(d.response)
    ensures x.result.Ok? ==> x.store == store && x.result.value == d.response.body
    ensures d.NetworkError? ==> x.store == store && x.result == Err(d.reason)
    ensures d.Delivered? ==> (x.store, x.result) == HandleResponse(store, d.response)
    ensures Replied(store, d, x)
  {
    match d
    case NetworkError(reason) => Exchange(store, [req], Err(reason))
    case Delivered(r) =>
      var (s, res) := HandleResponse(store, r);
      Exchange(s, [req], res)
  }

  /** A task or category call succeeds: a token is stored, a reply arrived
      and its status is 2xx. */
  predicate Succeeds<T>(store: Storage, d: Delivery<T>) {
    IsAuthenticated(store) && d.Delivered? && IsOk(d.response)
  }

  /** The shape of every task and category call: fail with the
      authentication message and issue nothing unless a token is stored;
      otherwise send the request with the bearer header. */
  function Gated<T>(store: Storage, verb: Method, path: string, body: Body, d: Delivery<T>): (x: Exchange<T>)
    ensures !IsAuthenticated(store) ==> x == Exchange(store, [], Err(AuthRequired))
    ensures x.result.Ok? <==> Succeeds(store, d)
    ensures x.result.Ok? ==> x.result.value == d.response.body
    ensures x.result.Err? ==> x.store == StoreAfterFailure(store, d) && x.result.message == FailureMessage(store, d)
    ensures IsAuthenticated(store) ==> Replied(store, d, x)
    ensures IsAuthenticated(store) ==>
      x.sent == [Request(verb, path, Some("Bearer " + store[AccessTokenKey]), body)]
    ensures x.result.Ok? ==> IsAuthenticated(store) && x.store == store
    ensures IsAuthenticated(store) && d.Delivered? && d.response.status == 401 ==>
      x.store == ClearTokens(store) && x.result == Err(AuthRequired)
  {
    if !IsAuthenticated(store) then Exchange(store, [], Err(AuthRequired))
    else Fetch(store, Request(verb, path, AuthHeader(store), body), d)
  }

  /** Sign-up, sign-in and refresh: persist the returned session's tokens on success. */
  function Establish<T>(x: Exchange<T>, session: Option<Session>): (y: Exchange<T>)
    requires x.result.Ok?
    ensures y.sent == x.sent && y.result == x.result
    ensures y.store == StoreSession(x.store, session)
  {
    Exchange(StoreSession(x.store, session), x.sent, x.result)
  }

  /** `signup`: never sends a token; stores the session's tokens only when
      the reply succeeds with an access token. */
  function Signup(store: Storage, email: string, password: string, d: Delivery<AuthBody>): (x: Exchange<AuthBody>)
    ensures x.sent == [Request(Post, "/auth/signup", None, Credentials(email, password))]
    ensures x.result.Ok? <==> d.Delivered? && IsOk(d.response)
    ensures x.result.Ok? ==> x.result.value == d.response.body
    ensures x.result.Ok? ==> x.store == StoreSession(store, x.result.value.session)
    ensures x.result.Err? ==> Replied(store, d, x)
  {
    var x := Fetch(store, Request(Post, "/auth/signup", None, Credentials(email, password)), d);
    if x.result.Ok? then Establish(x, x.result.value.session) else x
  }

  /** `signin`: as `signup`. */
  function Signin(store: Storage, email: string, password: string, d: Delivery<AuthBody>): (x: Exchange<AuthBody>)
    ensures x.sent == [Request(Post, "/auth/signin", None, Credentials(email, password))]
    ensures x.result.Ok? <==> d.Delivered? && IsOk(d.response)
    ensures x.result.Ok? ==> x.result.value == d.response.body
    ensures x.result.Ok? ==> x.store == StoreSession(store, x.result.value.session)
    ensures x.result.Err? ==> Replied(store, d, x)
  {
    var x := Fetch(store, Request(Post, "/auth/signin", None, Credentials(email, password)), d);
    if x.result.Ok? then Establish(x, x.result.value.session) else x
  }

  /** `refreshSession`: trades a refresh token for a new session, persisted
      under the same rule as sign-in. */
  function RefreshSession(store: Storage, refreshToken: string, d: Delivery<SessionBody>): (x: Exchange<SessionBody>)
    ensures x.sent == [Request(Post, "/auth/refresh", None, RefreshBody(refreshToken))]
    ensures x.result.Ok? <==> d.Delivered? && IsOk(d.response)
    ensures x.result.Ok? ==> x.result.value == d.response.body
    ensures x.result.Ok? ==> x.store == StoreSession(store, x.result.value.session)
    ensures x.result.Err? ==> Replied(store, d, x)
  {
    var x := Fetch(store, Request(Post, "/auth/refresh", None, RefreshBody(refreshToken)), d);
    if x.result.Ok? then Establish(x, x.result.value.session) else x
  }

  /** `signout`: the request carries the token held beforehand; once any
      reply arrives both tokens are removed before the status is looked at,
      so they are gone even when the server answers with an error. */
  function Signout(store: Storage, d: Delivery<()>): (x: Exchange<()>)
    ensures x.sent == [Request(Post, "/auth/signout", AuthHeader(store), NoBody)]
    ensures d.Delivered? ==> x.store == ClearTokens(store) && !IsAuthenticated(x.store)
    ensures d.Delivered? ==> (x.result.Ok? <==> IsOk(d.response))
    ensures d.NetworkError? ==> x.store == store && x.result == Err(d.reason)
    ensures d.Delivered? ==> (x.store, x.result) == HandleResponse(ClearTokens(store), d.response)
  {
    var req := Request(Post, "/auth/signout", AuthHeader(store), NoBody);
    match d
    case NetworkError(reason) => Exchange(store, [req], Err(reason))
    case Delivered(r) =>
      ClearTokensIdempotent(store);
      var (s, res) := HandleResponse(ClearTokens(store), r);
      Exchange(s, [req], res)
  }

  /** `getCurrentUser`: not gated; sends whatever token is stored. */
  function GetCurrentUser(store: Storage, d: Delivery<MeBody>): (x: Exchange<MeBody>)
    ensures x.sent == [Request(Get, "/auth/me", AuthHeader(store), NoBody)]
    ensures x.result.Ok? <==> d.Delivered? && IsOk(d.response)
    ensures x.result.Ok? ==> x.store == store && x.result.value == d.response.body
    ensures Replied(store, d, x)
  {
    Fetch(store, Request(Get, "/auth/me", AuthHeader(store), NoBody), d)
  }

  function ForgotPassword(store: Storage, email: string, d: Delivery<MessageBody>): (x: Exchange<MessageBody>)
    ensures x.sent == [Request(Post, "/auth/forgot-password", None, EmailBody(email))]
    ensures x.result.Ok? <==> d.Delivered? && IsOk(d.response)
    ensures Replied(store, d, x)
  {
    Fetch(store, Request(Post, "/auth/forgot-password", None, EmailBody(email)), d)
  }

  function ResetPassword(store: Storage, email: string, token: string, newPassword: string, d: Delivery<MessageBody>): (x: Exchange<MessageBody>)
    ensures x.sent == [Request(Post, "/auth/reset-password", None, ResetBody(email, token, newPassword))]
    ensures x.result.Ok? <==> d.Delivered? && IsOk(d.response)
    ensures Replied(store, d, x)
  {
    Fetch(store, Request(Post, "/auth/reset-password", None, ResetBody(email, token, newPassword)), d)
  }

  function GetTasks(store: Storage, d: Delivery<TasksBody>): (x: Exchange<TasksBody>)
    ensures !IsAuthenticated(store) ==> x == Exchange(store, [], Err(AuthRequired))
    ensures IsAuthenticated(store) ==> x.sent == [Request(Get, "/tasks", AuthHeader(store), NoBody)]
    ensures x.result.Ok? <==> Succeeds(store, d)
    ensures x.result.Ok? ==> x.store == store && x.result.value == d.response.body
    ensures x.result.Err? ==> x.store == StoreAfterFailure(store, d) && x.result.message == FailureMessage(store, d)
  {
    Gated(store, Get, "/tasks", NoBody, d)
  }

  function GetTask(store: Storage, id: string, d: Delivery<TaskBody>): (x: Exchange<TaskBody>)
    ensures !IsAuthenticated(store) ==> x == Exchange(store, [], Err(AuthRequired))
    ensures IsAuthenticated(store) ==> x.sent == [Request(Get, "/tasks/" + id, AuthHeader(store), NoBody)]
    ensures x.result.Ok? <==> Succeeds(store, d)
    ensures x.result.Ok? ==> x.store == store && x.result.value == d.response.body
    ensures x.result.Err? ==> x.store == StoreAfterFailure(store, d) && x.result.message == FailureMessage(store, d)
  {
    Gated(store, Get, "/tasks/" + id, NoBody, d)
  }

  function CreateTask(store: Storage, draft: TaskDraft, d: Delivery<TaskBody>): (x: Exchange<TaskBody>)
    ensures !IsAuthenticated(store) ==> x == Exchange(store, [], Err(AuthRequired))
    ensures IsAuthenticated(store) ==> x.sent == [Request(Post, "/tasks", AuthHeader(store), NewTask(draft))]
    ensures x.result.Ok? <==> Succeeds(store, d)
    ensures x.result.Ok? ==> x.store == store
    ensures x.result.Err? ==> x.store == StoreAfterFailure(store, d) && x.result.message == FailureMessage(store, d)
  {
    Gated(store, Post, "/tasks", NewTask(draft), d)
  }

  function UpdateTask(store: Storage, id: string, patch: TaskPatch, d: Delivery<TaskBody>): (x: Exchange<TaskBody>)
    ensures !IsAuthenticated(store) ==> x == Exchange(store, [], Err(AuthRequired))
    ensures IsAuthenticated(store) ==> x.sent == [Request(Put, "/tasks/" + id, AuthHeader(store), TaskChanges(patch))]
    ensures x.result.Ok? <==> Succeeds(store, d)
    ensures x.result.Ok? ==> x.store == store
    ensures x.result.Err? ==> x.store == StoreAfterFailure(store, d) && x.result.message == FailureMessage(store, d)
  {
    Gated(store, Put, "/tasks/" + id, TaskChanges(patch), d)
  }

  function DeleteTask(store: Storage, id: string, d: Delivery<()>): (x: Exchange<()>)
    ensures !IsAuthenticated(store) ==> x == Exchange(store, [], Err(AuthRequired))
    ensures IsAuthenticated(store) ==> x.sent == [Request(Delete, "/tasks/" + id, AuthHeader(store), NoBody)]
    ensures x.result.Ok? <==> Succeeds(store, d)
    ensures x.result.Ok? ==> x.store == store
    ensures x.result.Err? ==> x.store == StoreAfterFailure(store, d) && x.result.message == FailureMessage(store, d)
  {
    Gated(store, Delete, "/tasks/" + id, NoBody, d)
  }

  function GetTasksByStatus(store: Storage, status: string, d: Delivery<TasksBody>): (x: Exchange<TasksBody>)
    ensures !IsAuthenticated(store) ==> x == Exchange(store, [], Err(AuthRequired))
    ensures IsAuthenticated(store) ==> x.sent == [Request(Get, "/tasks/status/" + status, AuthHeader(store), NoBody)]
    ensures x.result.Ok? <==> Succeeds(store, d)
    ensures x.result.Ok? ==> x.store == store && x.result.value == d.response.body
    ensures x.result.Err? ==> x.store == StoreAfterFailure(store, d) && x.result.message == FailureMessage(store, d)
  {
    Gated(store, Get, "/tasks/status/" + status, NoBody, d)
  }

  function GetTasksByPriority(store: Storage, priority: string, d: Delivery<TasksBody>): (x: Exchange<TasksBody>)
    ensures !IsAuthenticated(store) ==> x == Exchange(store, [], Err(AuthRequired))
    ensures IsAuthenticated(store) ==> x.sent == [Request(Get, "/tasks/priority/" + priority, AuthHeader(store), NoBody)]
    ensures x.result.Ok? <==> Succeeds(store, d)
    ensures x.result.Ok? ==> x.store == store && x.result.value == d.response.body
    ensures x.result.Err? ==> x.store == StoreAfterFailure(store, d) && x.result.message == FailureMessage(store, d)
  {
    Gated(store, Get, "/tasks/priority/" + priority, NoBody, d)
  }

  /** `encode` stands for `encodeURIComponent`, whose escaping is not modelled. */
  function GetTasksByCategory(store: Storage, category: string, encode: string -> string, d: Delivery<TasksBody>): (x: Exchange<TasksBody>)
    ensures !IsAuthenticated(store) ==> x == Exchange(store, [], Err(AuthRequired))
    ensures IsAuthenticated(store) ==>
      x.sent == [Request(Get, "/tasks/category/" + encode(category), AuthHeader(store), NoBody)]
    ensures x.result.Ok? <==> Succeeds(store, d)
    ensures x.result.Ok? ==> x.store == store && x.result.value == d.response.body
    ensures x.result.Err? ==> x.store == StoreAfterFailure(store, d) && x.result.message == FailureMessage(store, d)
  {
    Gated(store, Get, "/tasks/category/" + encode(category), NoBody, d)
  }

  function GetCategories(store: Storage, d: Delivery<CategoriesBody>): (x: Exchange<CategoriesBody>)
    ensures !IsAuthenticated(store) ==> x == Exchange(store, [], Err(AuthRequired))
    ensures IsAuthenticated(store) ==> x.sent == [Request(Get, "/categories", AuthHeader(store), NoBody)]
    ensures x.result.Ok? <==> Succeeds(store, d)
    ensures x.result.Ok? ==> x.store == store && x.result.value == d.response.body
    ensures x.result.Err? ==> x.store == StoreAfterFailure(store, d) && x.result.message == FailureMessage(store, d)
  {
    Gated(store, Get, "/categories", NoBody, d)
  }

  function CreateCategory(store: Storage, name: string, d: Delivery<CategoryBody>): (x: Exchange<CategoryBody>)
    ensures !IsAuthenticated(store) ==> x == Exchange(store, [], Err(AuthRequired))
    ensures IsAuthenticated(store) ==> x.sent == [Request(Post, "/categories", AuthHeader(store), NewCategory(name))]
    ensures x.result.Ok? <==> Succeeds(store, d)
    ensures x.result.Ok? ==> x.store == store && x.result.value == d.response.body
    ensures x.result.Err? ==> x.store == StoreAfterFailure(store, d) && x.result.message == FailureMessage(store, d)
  {
    Gated(store, Post, "/categories", NewCategory(name), d)
  }

  /** After a 401 on any authenticated call the client holds no credential:
      `isAuthenticated()` is false and neither token is left in storage. */
  lemma UnauthorizedLogsOut<T>(store: Storage, verb: Method, path: string, body: Body, r: HttpResponse<T>)
    requires IsAuthenticated(store) && r.status == 401
    ensures var x := Gated(store, verb, path, body, Delivered(r));
      && !IsAuthenticated(x.store)
      && AccessTokenKey !in x.store && RefreshTokenKey !in x.store
      && x.result == Err(AuthRequired)
  {
  }
}

=== FILE: auth.dfy ===
/**
 The session store of src/contexts/AuthContext.tsx. Each operation is a
 transition from the state before the call to the state after its last
 `setState`, given the storage and the server's reply; the intermediate
 `loading: true` renders are not observable in this model.
 */
module Auth {
  import opened Outcomes
  import opened Types
  import opened Api

  datatype AuthState = AuthState(user: Option<User>, session: Option<Session>, loading: bool, error: Option<string>)

  /** The state before the first restore: nobody signed in, still loading. */
  const Initial := AuthState(None, None, true, None)

  const SignupFailed: string := "Signup failed. Please try again."

  /** What the task and category stores wait for before loading. */
  predicate Ready(a: AuthState) {
    !a.loading && a.user.Some?
  }

  /** No identity, not loading, no error. */
  predicate SignedOut(a: AuthState) {
    a.user.None? && a.session.None? && !a.loading && a.error.None?
  }

  /** A transition: the store state and storage afterwards, the requests
      issued and the message of the error the operation rethrows, if any. */
  datatype AuthStep = AuthStep(state: AuthState, store: Storage, sent: seq<Request>, thrown: Option<string>)

  /** `refreshUser`: without a stored token only `loading` is cleared and
      nothing is sent; otherwise `/auth/me` is asked, its user adopted on
      success, and on any failure the tokens are dropped and the store ends
      signed out without reporting an error. */
  function RefreshUser(a: AuthState, store: Storage, d: Delivery<MeBody>): (r: AuthStep)
    ensures r.thrown.None? && !r.state.loading
    ensures !IsAuthenticated(store) ==> r == AuthStep(a.(loading := false), store, [], None)
    ensures IsAuthenticated(store) ==> r.sent == [Request(Get, "/auth/me", AuthHeader(store), NoBody)]
    ensures IsAuthenticated(store) && d.Delivered? && IsOk(d.response) ==>
      && r.state == a.(user := Some(d.response.body.user), loading := false, error := None)
      && r.store == store
    ensures IsAuthenticated(store) && !(d.Delivered? && IsOk(d.response)) ==>
      SignedOut(r.state) && r.store == ClearTokens(store)
  {
    if !IsAuthenticated(store) then AuthStep(a.(loading := false), store, [], None)
    else
      var x := GetCurrentUser(store, d);
      match x.result
      case Ok(body) => AuthStep(a.(user := Some(body.user), loading := false, error := None), x.store, x.sent, None)
      case Err(_) =>
        ClearTokensIdempotent(store);
        AuthStep(a.(user := None, session := None, loading := false, error := None), ClearTokens(x.store), x.sent, None)
  }

  /** The provider's mount effect: one `refreshUser` from the initial state. */
  function Mount(store: Storage, d: Delivery<MeBody>): (r: AuthStep)
    ensures !r.state.loading && r.state.error.None? && r.state.session.None?
    ensures r.state.user.Some? <==> IsAuthenticated(store) && d.Delivered? && IsOk(d.response)
  {
    RefreshUser(Initial, store, d)
  }

  /** `signup`, with its three outcomes for a successful reply: a session and
      a user sign in; a request for e-mail confirmation ends signed out
      without an error; anything else fails with the fixed sign-up message.
      A failed reply keeps the identity and reports the reply's message. */
  function Signup(a: AuthState, store: Storage, email: string, password: string, d: Delivery<AuthBody>): (r: AuthStep)
    ensures !r.state.loading
    ensures r.state.error == r.thrown
    ensures r.sent == [Request(Post, "/auth/signup", None, Credentials(email, password))]
    ensures var ok := d.Delivered? && IsOk(d.response);
      && (ok && d.response.body.session.Some? && d.response.body.user.Some? ==>
            && r.thrown.None?
            && r.state.user == d.response.body.user
            && r.state.session == d.response.body.session
            && r.store == StoreSession(store, d.response.body.session))
      && (ok && !(d.response.body.session.Some? && d.response.body.user.Some?) && d.response.body.requiresEmailConfirmation ==>
            SignedOut(r.state) && r.thrown.None?)
      && (ok && !(d.response.body.session.Some? && d.response.body.user.Some?) && !d.response.body.requiresEmailConfirmation ==>
            r.state.user.None? && r.state.session.None? && r.thrown == Some(SignupFailed))
      && (!ok ==> r.thrown.Some? && r.state.user == a.user && r.state.session == a.session)
    ensures d.Delivered? && IsOk(d.response) ==> r.store == StoreSession(store, d.response.body.session)
    ensures d.NetworkError? ==> r.store == store && r.thrown == Some(d.reason)
    ensures d.Delivered? && !IsOk(d.response) ==> (r.store, Err(r.thrown.value)) == HandleResponse(store, d.response)
  {
    var x := Api.Signup(store, email, password, d);
    match x.result
    case Err(m) => AuthStep(a.(loading := false, error := Some(m)), x.store, x.sent, Some(m))
    case Ok(body) =>
      if body.session.Some? && body.user.Some? then
        AuthStep(a.(user := body.user, session := body.session, loading := false, error := None), x.store, x.sent, None)
      else if body.requiresEmailConfirmation then
        AuthStep(a.(user := None, session := None, loading := false, error := None), x.store, x.sent, None)
      else
        AuthStep(a.(user := None, session := None, loading := false, error := Some(SignupFailed)), x.store, x.sent, Some(SignupFailed))
  }

  /** `signin`: a successful reply's user and session are adopted as they
      are; a failure keeps the identity, records and rethrows the message. */
  function Signin(a: AuthState, store: Storage, email: string, password: string, d: Delivery<AuthBody>): (r: AuthStep)
    ensures !r.state.loading
    ensures r.state.error == r.thrown
    ensures r.sent == [Request(Post, "/auth/signin", None, Credentials(email, password))]
    ensures r.thrown.None? <==> d.Delivered? && IsOk(d.response)
    ensures r.thrown.None? ==>
      && r.state.user == d.response.body.user
      && r.state.session == d.response.body.session
      && r.store == StoreSession(store, d.response.body.session)
    ensures r.thrown.Some? ==> r.state.user == a.user && r.state.session == a.session
    ensures d.NetworkError? ==> r.store == store && r.thrown == Some(d.reason)
    ensures d.Delivered? && !IsOk(d.response) ==> (r.store, Err(r.thrown.value)) == HandleResponse(store, d.response)
  {
    var x := Api.Signin(store, email, password, d);
    match x.result
    case Ok(body) => AuthStep(a.(user := body.user, session := body.session, loading := false, error := None), x.store, x.sent, None)
    case Err(m) => AuthStep(a.(loading := false, error := Some(m)), x.store, x.sent, Some(m))
  }

  /** `signout`: whatever the reply, or none, the store ends signed out and
      nothing is thrown. The tokens are gone whenever a reply arrived. */
  function Signout(a: AuthState, store: Storage, d: Delivery<()>): (r: AuthStep)
    ensures SignedOut(r.state) && r.thrown.None?
    ensures r.sent == [Request(Post, "/auth/signout", AuthHeader(store), NoBody)]
    ensures d.Delivered? ==> r.store == ClearTokens(store)
    ensures d.NetworkError? ==> r.store == store
  {
    var x := Api.Signout(store, d);
    AuthStep(a.(user := None, session := None, loading := false, error := None), x.store, x.sent, None)
  }

  /** When the sign-out request never reaches the server the tokens stay in
      storage while the store reports nobody signed in; the next page load
      restores the identity from them if `/auth/me` accepts the token. */
  lemma OfflineSignoutIsUndoneByReload(a: AuthState, store: Storage, reason: string, me: HttpResponse<MeBody>)
    requires IsAuthenticated(store) && IsOk(me)
    ensures var out := Signout(a, store, NetworkError(reason));
      && SignedOut(out.state)
      && IsAuthenticated(out.store)
      && Mount(out.store, Delivered(me)).state.user == Some(me.body.user)
  {
  }

  /** A 401 on any authenticated call followed by the redirect's fresh page
      load ends signed out, without even asking `/auth/me`. */
  lemma UnauthorizedThenReloadSignsOut<T>(store: Storage, verb: Method, path: string, body: Body,
                                          r: HttpResponse<T>, me: Delivery<MeBody>)
    requires IsAuthenticated(store) && r.status == 401
    ensures var after := Gated(store, verb, path, body, Delivered(r)).store;
      && SignedOut(Mount(after, me).state)
      && Mount(after, me).sent == []
  {
  }
}

=== FILE: category_store.dfy ===
/**
 The category store of src/contexts/CategoryContext.tsx: the same gated,
 wholesale load as the task store, and a create that reloads and hands the
 created record back to its caller.
 */
module CategoryStore {
  import opened Outcomes
  import opened Types
  import opened Api
  import opened Auth

  datatype CategoryState = CategoryState(categories: seq<Category>, loading: bool, error: Option<string>)

  const Initial := CategoryState([], false, None)

  const LoadFailed: string := "Failed to load categories. Please try again."
  const CreateFailed: string := "Failed to create category. Please try again."

  /** A transition; `result` is what the operation resolves to or rejects with. */
  datatype CategoryStep<T> = CategoryStep(state: CategoryState, store: Storage, sent: seq<Request>, result: Result<T>)

  /** `loadCategories`: a no-op unless the session is ready; then the list
      is replaced wholesale (an absent list reads as empty) with the error
      cleared, or emptied with the load error. Never rejects. */
  function LoadCategories(s: CategoryState, auth: AuthState, store: Storage, d: Delivery<CategoriesBody>): (r: CategoryStep<()>)
    ensures r.result.Ok?
    ensures !Ready(auth) ==> r == CategoryStep(s, store, [], Ok(()))
    ensures Ready(auth) ==> !r.state.loading
    ensures Ready(auth) ==> r.sent == (if IsAuthenticated(store) then [Request(Get, "/categories", AuthHeader(store), NoBody)] else [])
    ensures Ready(auth) && Succeeds(store, d) ==>
      && r.state.categories == d.response.body.categories.GetOr([])
      && r.state.error.None?
      && r.store == store
    ensures Ready(auth) && !Succeeds(store, d) ==>
      && r.state.categories == []
      && r.state.error == Some(LoadFailed)
      && r.store == StoreAfterFailure(store, d)
  {
    if !Ready(auth) then CategoryStep(s, store, [], Ok(()))
    else
      var x := GetCategories(store, d);
      match x.result
      case Ok(body) => CategoryStep(CategoryState(body.categories.GetOr([]), false, None), x.store, x.sent, Ok(()))
      case Err(_) => CategoryStep(CategoryState([], false, Some(LoadFailed)), x.store, x.sent, Ok(()))
  }

  /** `createCategory`: on success the list is reloaded and the server's
      record returned; on failure the create error is recorded, the list is
      untouched and the gateway's error is rethrown. */
  function CreateCategory(s: CategoryState, auth: AuthState, store: Storage, name: string,
                          d: Delivery<CategoryBody>, reload: Delivery<CategoriesBody>): (r: CategoryStep<Category>)
    ensures r.result.Ok? <==> Succeeds(store, d)
    ensures r.result.Ok? ==>
      var l := LoadCategories(s.(error := None), auth, store, reload);
      && r.result.value == d.response.body.category
      && r.state == l.state
      && r.sent == [Request(Post, "/categories", AuthHeader(store), NewCategory(name))] + l.sent
      && r.store == l.store
    ensures r.result.Err? ==> r.state == s.(error := Some(CreateFailed))
    ensures r.result.Err? ==> r.store == StoreAfterFailure(store, d) && r.result.message == FailureMessage(store, d)
    ensures r.result.Err? ==> r.sent == (if IsAuthenticated(store) then [Request(Post, "/categories", AuthHeader(store), NewCategory(name))] else [])
    ensures !IsAuthenticated(store) ==> r == CategoryStep(s.(error := Some(CreateFailed)), store, [], Err(AuthRequired))
  {
    var x := Api.CreateCategory(store, name, d);
    match x.result
    case Err(m) => CategoryStep(s.(error := Some(CreateFailed)), x.store, x.sent, Err(m))
    case Ok(body) =>
      var l := LoadCategories(s.(error := None), auth, x.store, reload);
      CategoryStep(l.state, l.store, x.sent + l.sent, Ok(body.category))
  }
}

=== FILE: filters.dfy ===
/**
 The `Array.prototype.filter` calls the client makes over task lists, with
 their predicates named as data (`Criterion`) so that the stages of a filter
 pipeline can be combined and compared. `Select` keeps, in order, the tasks a
 criterion holds for.
 */
module Filters {
  import opened Outcomes
  import opened Text
  import opened Types

  datatype Criterion =
    | Any
      /** The status views: `active` is status other than completed. */
    | StatusIn(view: StatusFilter)
      /** The text search, for an already lower-cased and trimmed query. */
    | Mentions(query: string)
      /** Exact match of the task's category name. */
    | InCategory(name: string)
    | Both(first: Criterion, second: Criterion)

  /** `task.status === 'completed'`. */
  predicate IsCompleted(t: Task) {
    t.status == Completed
  }

  /** Lower-cased title contains the query, or the description is present,
      non-empty, and its lower-cased form contains the query. */
  predicate MatchesQuery(t: Task, query: string) {
    || Contains(ToLower(t.title), query)
    || (Truthy(t.description) && Contains(ToLower(t.description.value), query))
  }

  predicate Holds(c: Criterion, t: Task) {
    match c
    case Any => true
    case StatusIn(ShowAll) => true
    case StatusIn(ShowActive) => !IsCompleted(t)
    case StatusIn(ShowCompleted) => IsCompleted(t)
    case Mentions(query) => MatchesQuery(t, query)
    case InCategory(name) => t.category == Some(name)
    case Both(c1, c2) => Holds(c1, t) && Holds(c2, t)
  }

  /** `xs.filter(t => Holds(c, t))`. */
  function Select(xs: seq<Task>, c: Criterion): (r: seq<Task>)
    ensures |r| <= |xs|
    ensures forall t :: t in r <==> t in xs && Holds(c, t)
  {
    if |xs| == 0 then []
    else
      assert xs == [xs[0]] + xs[1..];
      if Holds(c, xs[0]) then [xs[0]] + Select(xs[1..], c) else Select(xs[1..], c)
  }

  /** `r` is the subsequence of `xs` at the strictly increasing positions `idx`. */
  ghost predicate PicksAt(r: seq<Task>, xs: seq<Task>, idx: seq<nat>) {
    && |idx| == |r|
    && (forall k :: 0 <= k < |idx| ==> idx[k] < |xs| && r[k] == xs[idx[k]])
    && (forall k, l :: 0 <= k < l < |idx| ==> idx[k] < idx[l])
  }

  function Shift(idx: seq<nat>): (r: seq<nat>)
    ensures |r| == |idx|
    ensures forall k :: 0 <= k < |idx| ==> r[k] == idx[k] + 1
  {
    seq(|idx|, k requires 0 <= k < |idx| => idx[k] + 1)
  }

  /** Positions into the tail, moved to positions into the whole list. */
  lemma ShiftPicks(xs: seq<Task>, r: seq<Task>, idx: seq<nat>)
    requires |xs| > 0 && PicksAt(r, xs[1..], idx)
    ensures PicksAt(r, xs, Shift(idx))
  {
    var sh := Shift(idx);
    forall k | 0 <= k < |sh|
      ensures sh[k] < |xs| && r[k] == xs[sh[k]]
    {
      assert r[k] == xs[1..][idx[k]];
    }
  }

  /** Picking the head first, then positions past it, is still a picking. */
  lemma ConsPicks(xs: seq<Task>, r: seq<Task>, idx: seq<nat>)
    requires |xs| > 0 && PicksAt(r, xs, idx)
    requires forall k :: 0 <= k < |idx| ==> idx[k] > 0
    ensures PicksAt([xs[0]] + r, xs, [0] + idx)
  {
    var r', idx' := [xs[0]] + r, [0] + idx;
    forall k | 0 < k < |idx'|
      ensures idx'[k] < |xs| && r'[k] == xs[idx'[k]]
    {
      assert idx'[k] == idx[k - 1] && r'[k] == r[k - 1];
    }
    forall k, l | 0 <= k < l < |idx'|
      ensures idx'[k] < idx'[l]
    {
      assert idx'[l] == idx[l - 1];
      if k > 0 {
        assert idx'[k] == idx[k - 1];
      }
    }
  }

  /** Membership in shifted positions is membership of the position one lower. */
  lemma ShiftMembers(idx: seq<nat>, i: nat)
    ensures i + 1 in Shift(idx) <==> i in idx
    ensures 0 !in Shift(idx)
  {
    var sh := Shift(idx);
    if i in idx {
      var k :| 0 <= k < |idx| && idx[k] == i;
      assert sh[k] == i + 1;
    }
  }

  /** The selection is order-preserving: it is `xs` read at exactly the
      positions where the criterion holds, in increasing order. */
  lemma {:induction false} SelectPositions(xs: seq<Task>, c: Criterion) returns (idx: seq<nat>)
    ensures PicksAt(Select(xs, c), xs, idx)
    ensures forall i :: 0 <= i < |xs| ==> (i in idx <==> Holds(c, xs[i]))
    decreases |xs|
  {
    if |xs| == 0 {
      idx := [];
    } else {
      var tail := xs[1..];
      var rest := SelectPositions(tail, c);
      var sh := Shift(rest);
      assert xs == [xs[0]] + tail;
      SelectCons(xs[0], tail, c);
      ShiftPicks(xs, Select(tail, c), rest);
      if Holds(c, xs[0]) {
        ConsPicks(xs, Select(tail, c), sh);
        idx := [0] + sh;
      } else {
        idx := sh;
      }
      PositionsStep(xs, c, rest, idx);
    }
  }

  /** The positions found in the tail, shifted, plus the head's position
      when it passes, are exactly the passing positions of the whole list. */
  lemma PositionsStep(xs: seq<Task>, c: Criterion, rest: seq<nat>, idx: seq<nat>)
    requires |xs| > 0
    requires forall i :: 0 <= i < |xs| - 1 ==> (i in rest <==> Holds(c, xs[1..][i]))
    requires idx == if Holds(c, xs[0]) then [0] + Shift(rest) else Shift(rest)
    ensures forall i :: 0 <= i < |xs| ==> (i in idx <==> Holds(c, xs[i]))
  {
    forall i | 0 <= i < |xs|
      ensures i in idx <==> Holds(c, xs[i])
    {
      ShiftMembers(rest, if i == 0 then 0 else i - 1);
      if i > 0 {
        assert xs[i] == xs[1..][i - 1];
      }
    }
  }

  /** One step of `Select` on a list given as head and tail. */
  lemma SelectCons(x: Task, rest: seq<Task>, c: Criterion)
    ensures Select([x] + rest, c) == if Holds(c, x) then [x] + Select(rest, c) else Select(rest, c)
  {
    assert ([x] + rest)[0] == x && ([x] + rest)[1..] == rest;
  }

  /** Two filters in sequence keep exactly what their conjunction keeps. */
  lemma {:induction false} SelectTwice(xs: seq<Task>, c1: Criterion, c2: Criterion)
    ensures Select(Select(xs, c1), c2) == Select(xs, Both(c1, c2))
    decreases |xs|
  {
    if |xs| > 0 {
      var x, rest := xs[0], xs[1..];
      assert xs == [x] + rest;
      SelectTwice(rest, c1, c2);
      SelectCons(x, rest, c1);
      SelectCons(x, rest, Both(c1, c2));
      if Holds(c1, x) {
        SelectCons(x, Select(rest, c1), c2);
      }
    }
  }

  /** A criterion that holds for every element keeps the whole list, and only then. */
  lemma {:induction false} SelectKeepsAll(xs: seq<Task>, c: Criterion)
    ensures Select(xs, c) == xs <==> forall i :: 0 <= i < |xs| ==> Holds(c, xs[i])
    decreases |xs|
  {
    if |xs| > 0 {
      SelectKeepsAll(xs[1..], c);
      if Select(xs, c) == xs {
        assert forall i :: 0 <= i < |xs| ==> Holds(c, xs[i]) by {
          forall i | 0 <= i < |xs| ensures Holds(c, xs[i]) {
            assert xs[i] in Select(xs, c);
          }
        }
      }
      if forall i :: 0 <= i < |xs| ==> Holds(c, xs[i]) {
        assert forall i :: 0 <= i < |xs[1..]| ==> Holds(c, xs[1..][i]) by {
          forall i | 0 <= i < |xs[1..]| ensures Holds(c, xs[1..][i]) {
            assert xs[1..][i] == xs[i + 1];
          }
        }
      }
    }
  }

  /** `Any` keeps everything. */
  lemma SelectAny(xs: seq<Task>)
    ensures Select(xs, Any) == xs
  {
    SelectKeepsAll(xs, Any);
  }

  /** Two criteria that disagree on every element split the list between
      them: together the two selections hold each element exactly once. */
  lemma {:induction false} SelectSplits(xs: seq<Task>, c1: Criterion, c2: Criterion)
    requires forall t :: t in xs ==> Holds(c1, t) != Holds(c2, t)
    ensures multiset(Select(xs, c1)) + multiset(Select(xs, c2)) == multiset(xs)
    ensures |Select(xs, c1)| + |Select(xs, c2)| == |xs|
    decreases |xs|
  {
    if |xs| > 0 {
      var x, rest := xs[0], xs[1..];
      assert xs == [x] + rest;
      SelectSplits(rest, c1, c2);
      SelectCons(x, rest, c1);
      SelectCons(x, rest, c2);
      assert multiset(xs) == multiset([x]) + multiset(rest);
      if Holds(c1, x) {
        assert multiset([x] + Select(rest, c1)) == multiset([x]) + multiset(Select(rest, c1));
      } else {
        assert multiset([x] + Select(rest, c2)) == multiset([x]) + multiset(Select(rest, c2));
      }
    }
  }

  /** `active` and `completed` are complementary on every task. */
  lemma ActiveCompletedComplementary(t: Task)
    ensures Holds(StatusIn(ShowActive), t) != Holds(StatusIn(ShowCompleted), t)
  {
  }
}

=== FILE: outcomes.dfy ===
/**
 Optional values and the success-or-thrown-error results that the client's
 asynchronous calls produce. A JavaScript `Error` is represented by its
 message only, because that is all any caller in the client reads of it.
 */
module Outcomes {

  /** A value that may be absent: `null` or `undefined` in the client. */
  datatype Option<+T> = None | Some(value: T) {

    /** The wrapped value, or `default` when absent (`x || default` on an object). */
    function GetOr(default: T): T {
      match this
      case Some(v) => v
      case None => default
    }
  }

  /** Either the value a promise resolves to, or the message of the error it rejects with. */
  datatype Result<+T> = Ok(value: T) | Err(message: string)

  /** JavaScript truthiness of an optional string: present and non-empty. */
  predicate Truthy(s: Option<string>) {
    s.Some? && s.value != ""
  }
}

=== FILE: stats.dfy ===
/**
 The dashboard counters of src/components/Stats.tsx: total, completed and
 active tasks and the completion percentage, over the store's full task list.
 */
module Stats {
  import opened Outcomes
  import opened Types
  import opened Filters
  import opened Auth
  import opened TaskStore

  datatype Counts = Counts(total: nat, completed: nat, active: nat, rate: nat)

  /** `Math.round(completed / total * 100)`, or 0 for no tasks, computed
      exactly: the nearest integer to 100·completed/total, halves rounded up. */
  function CompletionRate(completed: nat, total: nat): (rate: nat)
    requires completed <= total
    ensures rate <= 100
    ensures total == 0 ==> rate == 0
    ensures total > 0 ==> 200 * completed - total < 2 * total * rate <= 200 * completed + total
  {
    if total == 0 then 0
    else
      var rate := (200 * completed + total) / (2 * total);
      assert 2 * total * rate <= 200 * completed + total < 2 * total * rate + 2 * total;
      ScaleCancels(2 * total, rate, 101);
      rate
  }

  /** Scaling by a non-negative factor keeps the order. */
  lemma {:induction false} ScaleMonotone(a: nat, x: int, y: int)
    requires x <= y
    ensures a * x <= a * y
  {
    if a > 0 {
      ScaleMonotone(a - 1, x, y);
      assert a * x == (a - 1) * x + x && a * y == (a - 1) * y + y;
    }
  }

  /** A strict inequality between multiples of the same factor is one between the multiplicands. */
  lemma ScaleCancels(a: nat, x: int, y: int)
    requires a * x < a * y
    ensures x < y
  {
    if y <= x {
      ScaleMonotone(a, y, x);
    }
  }

  /** The four figures the dashboard shows for `tasks`. */
  function Summarize(tasks: seq<Task>): (c: Counts)
    ensures c.total == |tasks|
    ensures c.completed == |Select(tasks, StatusIn(ShowCompleted))|
    ensures c.active + c.completed == c.total
    ensures c.rate <= 100
    ensures c.rate == CompletionRate(c.completed, c.total)
  {
    var total := |tasks|;
    var completed := |Select(tasks, StatusIn(ShowCompleted))|;
    Counts(total, completed, total - completed, CompletionRate(completed, total))
  }

  /** The active figure counts exactly the tasks the `active` list shows. */
  lemma ActiveCountsActiveTasks(tasks: seq<Task>)
    ensures Summarize(tasks).active == |Select(tasks, StatusIn(ShowActive))|
  {
    SelectSplits(tasks, StatusIn(ShowActive), StatusIn(ShowCompleted));
  }

  /** The rate reads 100 exactly when at least 99.5% of the tasks are completed. */
  lemma RateFullIff(completed: nat, total: nat)
    requires completed <= total && total > 0
    ensures CompletionRate(completed, total) == 100 <==> 200 * completed >= 199 * total
  {
    var rate := CompletionRate(completed, total);
    if rate == 100 {
      assert 2 * total * rate == 200 * total;
    }
    if 200 * completed >= 199 * total && rate <= 99 {
      ScaleMonotone(2 * total, rate, 99);
    }
  }

  /** The rate reads 0 exactly when under 0.5% of the tasks are completed. */
  lemma RateZeroIff(completed: nat, total: nat)
    requires completed <= total && total > 0
    ensures CompletionRate(completed, total) == 0 <==> 200 * completed < total
  {
    var rate := CompletionRate(completed, total);
    if rate >= 1 {
      ScaleMonotone(2 * total, 1, rate);
    }
  }

  /** So a list with every task completed shows 100 and one with none completed shows 0 ... */
  lemma RateAtTheEnds(tasks: seq<Task>)
    requires |tasks| > 0
    ensures (forall i :: 0 <= i < |tasks| ==> IsCompleted(tasks[i])) ==> Summarize(tasks).rate == 100
    ensures (forall i :: 0 <= i < |tasks| ==> !IsCompleted(tasks[i])) ==> Summarize(tasks).rate == 0
  {
    var done := Select(tasks, StatusIn(ShowCompleted));
    SelectKeepsAll(tasks, StatusIn(ShowCompleted));
    RateFullIff(|done|, |tasks|);
    RateZeroIff(|done|, |tasks|);
    if forall i :: 0 <= i < |tasks| ==> !IsCompleted(tasks[i]) {
      if |done| > 0 {
        assert done[0] in tasks;
      }
    }
  }

  /** ... but 100 does not mean every task is completed: with 200 of 201
      completed the rounded rate is already 100. */
  lemma RateFullWithActiveTask()
    ensures CompletionRate(200, 201) == 100
  {
    RateFullIff(200, 201);
  }

  /** What the panel shows: placeholders while the session store is loading,
      nothing without a user, `...` in every figure while the task store is
      loading, and otherwise the figures. */
  datatype Panel = Placeholders | NoPanel | Counting | Figures(counts: Counts)

  function Display(auth: AuthState, s: TaskState): (p: Panel)
    ensures auth.loading ==> p == Placeholders
    ensures p.Figures? <==> Ready(auth) && !s.loading
    ensures p == NoPanel <==> !auth.loading && auth.user.None?
    ensures p == Counting <==> Ready(auth) && s.loading
    ensures p.Figures? ==> p.counts == Summarize(s.tasks) && p.counts.total == |s.tasks|
  {
    if auth.loading then Placeholders
    else if auth.user.None? then NoPanel
    else if s.loading then Counting
    else Figures(Summarize(s.tasks))
  }

  /** The figures are over the whole store: the status view, the search and
      the category filter do not change them. */
  lemma FiguresIgnoreFilters(auth: AuthState, s: TaskState, f: StatusFilter, q: string, c: Option<string>)
    ensures Display(auth, s) == Display(auth, s.(filter := f, searchQuery := q, categoryFilter := c))
  {
  }
}

=== FILE: task_form.dfy ===
/**
 The new-task form of src/components/TaskForm.tsx: its field state, the
 priority guard, the new-category toggle, and the submit handler, which may
 first create a category and then creates the task through the stores.
 */
module TaskForm {
  import opened Outcomes
  import opened Text
  import opened Types
  import opened Api
  import opened Auth
  import TaskStore
  import CategoryStore

  datatype FormState = FormState(
    title: string,
    description: string,
    priority: Priority,
    dueDate: string,
    selectedCategory: string,
    newCategoryName: string,
    showNewCategoryInput: bool,
    loading: bool,
    error: Option<string>)

  /** The fields as the form opens and as a successful submit leaves them. */
  const Blank := FormState("", "", Medium, "", "", "", false, false, None)

  const CategoryFailed: string := "Failed to create category. Please try again."

  /** The priority `<select>` handler: a value outside the three priorities is ignored. */
  function SetPriority(f: FormState, value: string): (r: FormState)
    ensures value in {"low", "medium", "high"} ==> PriorityName(r.priority) == value
    ensures r.(priority := f.priority) == f
    ensures value !in {"low", "medium", "high"} ==> r == f
  {
    match ParsePriority(value)
    case Some(p) => f.(priority := p)
    case None => f
  }

  /** Every option the select offers is accepted as the priority it names. */
  lemma EveryOptionSelects(f: FormState, p: Priority)
    ensures SetPriority(f, PriorityName(p)).priority == p
  {
    PriorityRoundTrip(p);
  }

  /** `x || undefined` on a string. */
  function OmitEmpty(s: string): (o: Option<string>)
    ensures o.None? <==> s == []
    ensures o.Some? ==> o.value == s
  {
    if s == [] then None else Some(s)
  }

  /** A new category is created on submit only when its input is showing
      and the name is not blank. */
  predicate WantsNewCategory(f: FormState) {
    f.showNewCategoryInput && Trim(f.newCategoryName) != []
  }

  /** The payload the submit hands to `createTask` once any new category exists. */
  function DraftFor(f: FormState): (d: TaskDraft)
    ensures d.title == Trim(f.title)
    ensures d.description.Some? <==> !OnlySpaces(f.description)
    ensures d.description.Some? ==> d.description.value == Trim(f.description)
    ensures d.status.None? && d.priority == Some(f.priority)
    ensures d.dueDate == OmitEmpty(f.dueDate)
    ensures d.category.Some? ==> d.category.value != []
    ensures WantsNewCategory(f) ==> d.category == Some(Trim(f.newCategoryName))
    ensures !WantsNewCategory(f) ==> d.category == OmitEmpty(f.selectedCategory)
  {
    var categoryToUse := if WantsNewCategory(f) then Trim(f.newCategoryName) else f.selectedCategory;
    TaskDraft(Trim(f.title), OmitEmpty(Trim(f.description)), None, Some(f.priority), OmitEmpty(f.dueDate), OmitEmpty(categoryToUse))
  }

  /** "+ New": show the name input and drop the selected category. */
  function OpenNewCategory(f: FormState): (r: FormState)
    ensures r.showNewCategoryInput && r.selectedCategory == []
    ensures r.(showNewCategoryInput := f.showNewCategoryInput, selectedCategory := f.selectedCategory) == f
  {
    f.(showNewCategoryInput := true, selectedCategory := "")
  }

  /** "Cancel": hide the name input and forget the typed name. */
  function CancelNewCategory(f: FormState): (r: FormState)
    ensures !r.showNewCategoryInput && r.newCategoryName == []
    ensures r.(showNewCategoryInput := f.showNewCategoryInput, newCategoryName := f.newCategoryName) == f
  {
    f.(showNewCategoryInput := false, newCategoryName := "")
  }

  /** After "Cancel" no category is created and the selected one, if any, is sent. */
  lemma CancelledCategoryIsNotCreated(f: FormState)
    ensures !WantsNewCategory(CancelNewCategory(f))
    ensures DraftFor(CancelNewCategory(f)).category == OmitEmpty(f.selectedCategory)
  {
  }

  /** After "+ New", a blank name means the task goes out without a category,
      whatever had been selected before. */
  lemma BlankNewCategorySendsNone(f: FormState, name: string)
    requires OnlySpaces(name)
    ensures DraftFor(OpenNewCategory(f).(newCategoryName := name)).category.None?
  {
  }

  /** The outcome of one submit: the form, both stores and the storage
      afterwards, the requests issued in order, and whether the form closed. */
  datatype Submission = Submission(
    form: FormState,
    categories: CategoryStore.CategoryState,
    tasks: TaskStore.TaskState,
    store: Storage,
    sent: seq<Request>,
    closed: bool)

  /** Every task posted in `sent` carries `draft`. */
  predicate PostsOnly(sent: seq<Request>, draft: TaskDraft) {
    forall i :: 0 <= i < |sent| && sent[i].body.NewTask? ==> sent[i].body.draft == draft
  }

  /** No task is posted in `sent`. */
  predicate PostsNoTask(sent: seq<Request>) {
    forall i :: 0 <= i < |sent| ==> !sent[i].body.NewTask?
  }

  /** Any task posted in `sent` comes after the first request, which posts the category `name`. */
  predicate CategoryLeads(sent: seq<Request>, name: string) {
    forall i :: 0 <= i < |sent| && sent[i].body.NewTask? ==> 0 < i && sent[0].body == NewCategory(name)
  }

  /** Category requests followed by task requests keep the category first. */
  lemma CategoryThenTask(before: seq<Request>, after: seq<Request>, name: string, draft: TaskDraft)
    requires |before| > 0 && before[0].body == NewCategory(name) && PostsNoTask(before)
    requires PostsOnly(after, draft)
    ensures PostsOnly(before + after, draft)
    ensures CategoryLeads(before + after, name)
  {
    var all := before + after;
    assert forall i :: |before| <= i < |all| ==> all[i] == after[i - |before|];
  }

  /** The requests of the category step: the category post comes first
      when a token is stored, and no task is ever posted. */
  lemma CategoryStepRequests(cats: CategoryStore.CategoryState, auth: AuthState, store: Storage, name: string,
                             d: Delivery<CategoryBody>, reload: Delivery<CategoriesBody>)
    ensures var c := CategoryStore.CreateCategory(cats, auth, store, name, d, reload);
      && PostsNoTask(c.sent)
      && (c.result.Ok? ==> |c.sent| > 0 && c.sent[0].body == NewCategory(name))
  {
    var c := CategoryStore.CreateCategory(cats, auth, store, name, d, reload);
    var l := CategoryStore.LoadCategories(cats.(error := None), auth, store, reload);
    if c.result.Ok? {
      assert c.sent == [Request(Post, "/categories", AuthHeader(store), NewCategory(name))] + l.sent;
    }
  }

  /** The task half of the submit. Success resets the form and closes it;
      failure keeps every field and shows the rethrown message. */
  function AddTask(f: FormState, auth: AuthState, cats: CategoryStore.CategoryState, tasks: TaskStore.TaskState,
                   store: Storage, d: Delivery<TaskBody>, reload: Delivery<TasksBody>): (r: Submission)
    ensures r.closed <==> Succeeds(store, d)
    ensures r.closed ==> r.form == Blank
    ensures !r.closed ==> r.form == f.(loading := false, error := r.form.error)
    ensures !r.closed ==> r.form.error == TaskStore.CreateTask(tasks, auth, store, DraftFor(f), d, reload).thrown
    ensures !r.closed ==> r.form.error == Some(FailureMessage(store, d))
    ensures PostsOnly(r.sent, DraftFor(f))
    ensures IsAuthenticated(store) ==> |r.sent| > 0 && r.sent[0] == Request(Post, "/tasks", AuthHeader(store), NewTask(DraftFor(f)))
    ensures r.tasks == TaskStore.CreateTask(tasks, auth, store, DraftFor(f), d, reload).state
    ensures r.store == TaskStore.CreateTask(tasks, auth, store, DraftFor(f), d, reload).store
    ensures r.categories == cats
    ensures r.sent == TaskStore.CreateTask(tasks, auth, store, DraftFor(f), d, reload).sent
  {
    var t := TaskStore.CreateTask(tasks, auth, store, DraftFor(f), d, reload);
    if t.thrown.Some? then Submission(f.(loading := false, error := t.thrown), cats, t.state, t.store, t.sent, false)
    else Submission(Blank, cats, t.state, t.store, t.sent, true)
  }

  /** After the category `c` was created, the submit went on to create the
      task: the request right after the category step posts the form's
      payload (when a token is still stored), the task store is the result
      of that creation, and the form closes exactly when it succeeds and
      otherwise shows its message. */
  ghost predicate CreatesTaskAfter(f: FormState, auth: AuthState, cats: CategoryStore.CategoryState, tasks: TaskStore.TaskState,
                                   store: Storage, catDelivery: Delivery<CategoryBody>, catReload: Delivery<CategoriesBody>,
                                   taskDelivery: Delivery<TaskBody>, taskReload: Delivery<TasksBody>, r: Submission)
  {
    var c := CategoryStore.CreateCategory(cats, auth, store, Trim(f.newCategoryName), catDelivery, catReload);
    var t := TaskStore.CreateTask(tasks, auth, c.store, DraftFor(f), taskDelivery, taskReload);
    && r.categories == c.state
    && r.tasks == t.state
    && r.store == t.store
    && (r.closed <==> Succeeds(c.store, taskDelivery))
    && (!r.closed ==> r.form.error == t.thrown)
    && r.sent == c.sent + t.sent
    && (IsAuthenticated(c.store) ==>
          |r.sent| > |c.sent| && r.sent[|c.sent|] == Request(Post, "/tasks", AuthHeader(c.store), NewTask(DraftFor(f))))
  }

  /** The submit with a new category wanted: the category is created first;
      if that fails the form shows the category message and no task is
      posted, otherwise the task half runs on the storage it left. */
  function WithNewCategory(f: FormState, auth: AuthState, cats: CategoryStore.CategoryState, tasks: TaskStore.TaskState, store: Storage,
                           catDelivery: Delivery<CategoryBody>, catReload: Delivery<CategoriesBody>,
                           taskDelivery: Delivery<TaskBody>, taskReload: Delivery<TasksBody>): (r: Submission)
    ensures !Succeeds(store, catDelivery) ==>
      var c := CategoryStore.CreateCategory(cats, auth, store, Trim(f.newCategoryName), catDelivery, catReload);
      && r.form == f.(loading := false, error := Some(CategoryFailed))
      && r.tasks == tasks && !r.closed
      && r.categories == c.state && r.store == c.store && r.sent == c.sent
      && PostsNoTask(r.sent)
    ensures r.closed ==> r.form == Blank
    ensures !r.closed ==> r.form.error.Some? && r.form == f.(loading := false, error := r.form.error)
    ensures PostsOnly(r.sent, DraftFor(f))
    ensures CategoryLeads(r.sent, Trim(f.newCategoryName))
    ensures Succeeds(store, catDelivery) ==> CreatesTaskAfter(f, auth, cats, tasks, store, catDelivery, catReload, taskDelivery, taskReload, r)
  {
    var name := Trim(f.newCategoryName);
    var c := CategoryStore.CreateCategory(cats, auth, store, name, catDelivery, catReload);
    CategoryStepRequests(cats, auth, store, name, catDelivery, catReload);
    if c.result.Err? then
      Submission(f.(loading := false, error := Some(CategoryFailed)), c.state, tasks, c.store, c.sent, false)
    else
      var a := AddTask(f, auth, c.state, tasks, c.store, taskDelivery, taskReload);
      CategoryThenTask(c.sent, a.sent, name, DraftFor(f));
      a.(sent := c.sent + a.sent)
  }

  /** `handleSubmit`. */
  function Submit(f: FormState, auth: AuthState, cats: CategoryStore.CategoryState, tasks: TaskStore.TaskState, store: Storage,
                  catDelivery: Delivery<CategoryBody>, catReload: Delivery<CategoriesBody>,
                  taskDelivery: Delivery<TaskBody>, taskReload: Delivery<TasksBody>): (r: Submission)
    // A blank title does nothing at all.
    ensures OnlySpaces(f.title) ==> r == Submission(f, cats, tasks, store, [], false)
    // Closing resets every field.
    ensures r.closed ==> r.form == Blank
    // An open form keeps what was typed and shows why.
    ensures !OnlySpaces(f.title) && !r.closed ==> r.form.error.Some? && r.form == f.(loading := false, error := r.form.error)
    // Every task posted carries the form's payload, after the category it needs.
    ensures PostsOnly(r.sent, DraftFor(f))
    ensures WantsNewCategory(f) ==> CategoryLeads(r.sent, Trim(f.newCategoryName))
    // A failed category creation stops the submit before any task is posted.
    ensures !OnlySpaces(f.title) && WantsNewCategory(f) && !Succeeds(store, catDelivery) ==>
      var c := CategoryStore.CreateCategory(cats, auth, store, Trim(f.newCategoryName), catDelivery, catReload);
      && r.form == f.(loading := false, error := Some(CategoryFailed))
      && r.tasks == tasks && !r.closed
      && r.categories == c.state && r.store == c.store && r.sent == c.sent
      && PostsNoTask(r.sent)
    // Once the category exists, the task is created with the storage it left.
    ensures !OnlySpaces(f.title) && WantsNewCategory(f) && Succeeds(store, catDelivery) ==>
      CreatesTaskAfter(f, auth, cats, tasks, store, catDelivery, catReload, taskDelivery, taskReload, r)
    // Without a new category the submit is exactly one task creation.
    ensures !OnlySpaces(f.title) && !WantsNewCategory(f) ==>
      var t := TaskStore.CreateTask(tasks, auth, store, DraftFor(f), taskDelivery, taskReload);
      && (r.closed <==> Succeeds(store, taskDelivery))
      && r.tasks == t.state && r.store == t.store && r.categories == cats && r.sent == t.sent
      && (!r.closed ==> r.form.error == Some(FailureMessage(store, taskDelivery)))
      && (IsAuthenticated(store) ==> |r.sent| > 0 && r.sent[0] == Request(Post, "/tasks", AuthHeader(store), NewTask(DraftFor(f))))
  {
    if Trim(f.title) == [] then Submission(f, cats, tasks, store, [], false)
    else if WantsNewCategory(f) then WithNewCategory(f, auth, cats, tasks, store, catDelivery, catReload, taskDelivery, taskReload)
    else AddTask(f, auth, cats, tasks, store, taskDelivery, taskReload)
  }

  /** A category created by a submit whose task then fails is created again
      by the next submit: the form still asks for it. */
  lemma RetryRecreatesCategory(f: FormState, auth: AuthState, cats: CategoryStore.CategoryState, tasks: TaskStore.TaskState,
                               store: Storage, catDelivery: Delivery<CategoryBody>, catReload: Delivery<CategoriesBody>,
                               taskDelivery: Delivery<TaskBody>, taskReload: Delivery<TasksBody>)
    requires !OnlySpaces(f.title) && WantsNewCategory(f)
    ensures var r := Submit(f, auth, cats, tasks, store, catDelivery, catReload, taskDelivery, taskReload);
      !r.closed ==> WantsNewCategory(r.form) && DraftFor(r.form) == DraftFor(f)
  {
  }
}

=== FILE: task_item.dfy ===
/**
 One row of the task list, src/components/TaskItem.tsx: the completion
 checkbox and its toggle, and the delete button, both of which go straight
 to the task store.
 */
module TaskItem {
  import opened Outcomes
  import opened Types
  import opened Api
  import opened Filters
  import opened Auth
  import TaskStore

  /** The status the checkbox sends: a completed task goes back to pending;
      any other status, in-progress and cancelled included, becomes completed. */
  function ToggledStatus(t: Task): (st: Status)
    ensures st == Pending <==> IsCompleted(t)
    ensures st == Completed <==> !IsCompleted(t)
  {
    if IsCompleted(t) then Pending else Completed
  }

  /** The update the checkbox sends: the status and nothing else. */
  function ToggleChanges(t: Task): (p: TaskPatch)
    ensures p.status == Some(ToggledStatus(t))
    ensures p.(status := None) == EmptyPatch
  {
    EmptyPatch.(status := Some(ToggledStatus(t)))
  }

  /** Ticking the checkbox: `updateTask(task.id, { status })`. */
  function Toggle(s: TaskStore.TaskState, auth: AuthState, store: Storage, t: Task,
                  d: Delivery<TaskBody>, reload: Delivery<TasksBody>): (r: TaskStore.TaskStep)
    ensures r.thrown.None? <==> Succeeds(store, d)
    ensures IsAuthenticated(store) ==>
      && |r.sent| > 0
      && r.sent[0] == Request(Put, "/tasks/" + t.id, AuthHeader(store), TaskChanges(ToggleChanges(t)))
    ensures !IsAuthenticated(store) ==> r.sent == []
    ensures r == TaskStore.UpdateTask(s, auth, store, t.id, ToggleChanges(t), d, reload)
  {
    TaskStore.UpdateTask(s, auth, store, t.id, ToggleChanges(t), d, reload)
  }

  /** The delete button: `deleteTask(task.id)`, without confirmation. */
  function Remove(s: TaskStore.TaskState, auth: AuthState, store: Storage, t: Task,
                  d: Delivery<()>, reload: Delivery<TasksBody>): (r: TaskStore.TaskStep)
    ensures r.thrown.None? <==> Succeeds(store, d)
    ensures IsAuthenticated(store) ==>
      && |r.sent| > 0
      && r.sent[0] == Request(Delete, "/tasks/" + t.id, AuthHeader(store), NoBody)
    ensures !IsAuthenticated(store) ==> r.sent == []
    ensures r == TaskStore.DeleteTask(s, auth, store, t.id, d, reload)
  {
    TaskStore.DeleteTask(s, auth, store, t.id, d, reload)
  }

  /** The toggle always flips the checkbox. */
  lemma ToggleFlips(t: Task)
    ensures IsCompleted(t.(status := ToggledStatus(t))) != IsCompleted(t)
  {
  }

  /** Toggling twice restores a completed or pending task, but brings an
      in-progress or cancelled one back as pending: the original status is lost. */
  lemma ToggleTwice(t: Task)
    ensures ToggledStatus(t.(status := ToggledStatus(t))) == (if IsCompleted(t) then Completed else Pending)
    ensures ToggledStatus(t.(status := ToggledStatus(t))) == t.status <==> t.status in {Completed, Pending}
  {
  }
}

=== FILE: task_list.dfy ===
/**
 The task list of src/components/TaskList.tsx. It narrows the store's full
 task list by its own `filter` prop, independently of the store's
 `filteredTasks`, and chooses between its loading, error, empty and list
 renderings.
 */
module TaskList {
  import opened Outcomes
  import opened Types
  import opened Filters
  import opened Auth
  import opened TaskStore

  /** The `filter` prop, `'all'` when it is omitted. */
  function ViewOf(prop: Option<StatusFilter>): StatusFilter {
    prop.GetOr(ShowAll)
  }

  /** The list's own status filter over the store's tasks. */
  function Visible(tasks: seq<Task>, f: StatusFilter): (r: seq<Task>)
    ensures |r| <= |tasks|
    ensures forall t :: t in r <==> t in tasks && Holds(StatusIn(f), t)
  {
    Select(tasks, StatusIn(f))
  }

  /** The empty-state heading. The template puts the prop's value, with
      `_` read as a space, between "No" and "tasks found", and leaves it out
      for `all`; none of the three values holds a `_`. */
  function EmptyHeading(f: StatusFilter): (h: string)
    ensures h == "No " + (if f == ShowAll then "" else FilterName(f) + " ") + "tasks found"
  {
    match f
    case ShowAll => "No tasks found"
    case ShowActive => "No active tasks found"
    case ShowCompleted => "No completed tasks found"
  }

  /** Each view has its own empty-state heading. */
  lemma EmptyHeadingsDiffer(f: StatusFilter, g: StatusFilter)
    requires f != g
    ensures EmptyHeading(f) != EmptyHeading(g)
  {
    assert EmptyHeading(f)[3] != EmptyHeading(g)[3];
  }

  datatype ListView =
    | Skeleton
    | NoList
    | Spinner
    | ErrorPanel(message: string)
    | NoTasks(heading: string)
    | Rows(items: seq<Task>)

  /** The rendering, checked in the source's order: session loading, no
      user, store loading, a truthy store error, an empty view, the rows. */
  function Render(auth: AuthState, s: TaskState, prop: Option<StatusFilter>): (v: ListView)
    ensures auth.loading ==> v == Skeleton
    ensures !auth.loading && auth.user.None? ==> v == NoList
    ensures Ready(auth) && s.loading ==> v == Spinner
    ensures v.ErrorPanel? <==> Ready(auth) && !s.loading && Truthy(s.error)
    ensures v.ErrorPanel? ==> Some(v.message) == s.error
    ensures v.NoTasks? <==>
      Ready(auth) && !s.loading && !Truthy(s.error) && forall t :: t in s.tasks ==> !Holds(StatusIn(ViewOf(prop)), t)
    ensures v.NoTasks? ==> v.heading == EmptyHeading(ViewOf(prop))
    ensures Ready(auth) && !s.loading && !Truthy(s.error) && Visible(s.tasks, ViewOf(prop)) != [] ==>
      v == Rows(Visible(s.tasks, ViewOf(prop)))
    ensures v.Rows? ==>
      && v.items != []
      && forall t :: t in v.items <==> t in s.tasks && Holds(StatusIn(ViewOf(prop)), t)
  {
    if auth.loading then Skeleton
    else if auth.user.None? then NoList
    else if s.loading then Spinner
    else if Truthy(s.error) then ErrorPanel(s.error.value)
    else
      var items := Visible(s.tasks, ViewOf(prop));
      if |items| == 0 then NoTasks(EmptyHeading(ViewOf(prop)))
      else
        assert items[0] in items;
        Rows(items)
  }

  /** The list's filter is the store's status stage, `all` included. */
  lemma VisibleIsStatusStage(tasks: seq<Task>, f: StatusFilter)
    ensures Visible(tasks, f) == StatusStage(tasks, f)
  {
    if f == ShowAll {
      SelectKeepsAll(tasks, StatusIn(ShowAll));
    }
  }

  /** The rows keep the store's order. */
  lemma VisibleKeepsOrder(tasks: seq<Task>, f: StatusFilter) returns (idx: seq<nat>)
    ensures PicksAt(Visible(tasks, f), tasks, idx)
    ensures forall i :: 0 <= i < |tasks| ==> (i in idx <==> Holds(StatusIn(f), tasks[i]))
  {
    idx := SelectPositions(tasks, StatusIn(f));
  }

  /** The list does not read the store's search or category filter ... */
  lemma RenderIgnoresStoreFilters(auth: AuthState, s: TaskState, prop: Option<StatusFilter>, q: string, c: Option<string>)
    ensures Render(auth, s, prop) == Render(auth, s.(searchQuery := q, categoryFilter := c), prop)
  {
  }

  /** ... so a task the search hides from `filteredTasks` is still listed. */
  lemma ListedDespiteSearch(s: TaskState, t: Task)
    requires t in s.tasks && Holds(StatusIn(s.filter), t)
    requires SearchApplies(s.searchQuery) && !MatchesQuery(t, Query(s.searchQuery))
    ensures t !in FilteredTasks(s)
    ensures t in Visible(s.tasks, s.filter)
  {
    FilteredMembership(s, t);
  }

  /** Every task of `filteredTasks` is listed under the same status view. */
  lemma FilteredIsListed(s: TaskState, t: Task)
    requires t in FilteredTasks(s)
    ensures t in Visible(s.tasks, s.filter)
  {
    FilteredMembership(s, t);
  }
}

=== FILE: task_store.dfy ===
/**
 The task store of src/contexts/TaskContext.tsx: the task collection with its
 loading and error flags, the transient filter state, and the derived
 `filteredTasks` view. Loads are gated on the session store being ready;
 every mutation writes to the server and then reloads the whole list.
 */
module TaskStore {
  import opened Outcomes
  import opened Text
  import opened Types
  import opened Api
  import opened Filters
  import opened Auth

  datatype TaskState = TaskState(
    tasks: seq<Task>,
    loading: bool,
    error: Option<string>,
    filter: StatusFilter,
    searchQuery: string,
    categoryFilter: Option<string>)

  const Initial := TaskState([], false, None, ShowAll, "", None)

  const LoadFailed: string := "Failed to load tasks. Please try again."
  const CreateFailed: string := "Failed to create task. Please try again."
  const UpdateFailed: string := "Failed to update task. Please try again."
  const DeleteFailed: string := "Failed to delete task. Please try again."

  /** A transition of the store: the state and storage afterwards, the
      requests issued in order, and the message rethrown, if any. */
  datatype TaskStep = TaskStep(state: TaskState, store: Storage, sent: seq<Request>, thrown: Option<string>)

  /** The filter state of `a` and `b` agree. */
  predicate SameFilters(a: TaskState, b: TaskState) {
    a.filter == b.filter && a.searchQuery == b.searchQuery && a.categoryFilter == b.categoryFilter
  }

  /** `loadTasks`: nothing happens unless the session is ready; then the
      list is replaced wholesale by the server's (an absent list reads as
      empty) and the error cleared, or on any failure emptied with the load
      error. It never throws and always ends with `loading` false. */
  function LoadTasks(s: TaskState, auth: AuthState, store: Storage, d: Delivery<TasksBody>): (r: TaskStep)
    ensures r.thrown.None?
    ensures !Ready(auth) ==> r == TaskStep(s, store, [], None)
    ensures Ready(auth) ==> !r.state.loading && SameFilters(r.state, s)
    ensures Ready(auth) ==> r.sent == (if IsAuthenticated(store) then [Request(Get, "/tasks", AuthHeader(store), NoBody)] else [])
    ensures Ready(auth) && Succeeds(store, d) ==>
      && r.state.tasks == d.response.body.tasks.GetOr([])
      && r.state.error.None?
      && r.store == store
    ensures Ready(auth) && !Succeeds(store, d) ==>
      && r.state.tasks == []
      && r.state.error == Some(LoadFailed)
      && r.store == StoreAfterFailure(store, d)
  {
    if !Ready(auth) then TaskStep(s, store, [], None)
    else
      var x := GetTasks(store, d);
      match x.result
      case Ok(body) => TaskStep(s.(tasks := body.tasks.GetOr([]), loading := false, error := None), x.store, x.sent, None)
      case Err(_) => TaskStep(s.(tasks := [], loading := false, error := Some(LoadFailed)), x.store, x.sent, None)
  }

  /** The write-then-refetch pattern shared by create, update and delete:
      after a failed write the store records `failure` and rethrows the
      write's own error with the task list untouched; after a successful one
      it clears the error and reloads. */
  function WriteThenRefetch<T>(s: TaskState, auth: AuthState, x: Exchange<T>, failure: string, reload: Delivery<TasksBody>): (r: TaskStep)
    ensures x.result.Err? ==> r == TaskStep(s.(error := Some(failure)), x.store, x.sent, Some(x.result.message))
    ensures x.result.Ok? ==>
      var l := LoadTasks(s.(error := None), auth, x.store, reload);
      r == TaskStep(l.state, l.store, x.sent + l.sent, None)
    // The write's requests come first, and the filters survive either way.
    ensures r.thrown.None? <==> x.result.Ok?
    ensures |r.sent| >= |x.sent| && r.sent[..|x.sent|] == x.sent
    ensures SameFilters(r.state, s)
    // A failed write leaves the list as it was.
    ensures x.result.Err? ==> r.state.tasks == s.tasks && r.store == x.store
    // A successful one clears the error and reloads once the session is ready.
    ensures x.result.Ok? && !Ready(auth) ==> r.state == s.(error := None) && r.sent == x.sent
    ensures x.result.Ok? && Ready(auth) ==> !r.state.loading && (r.state.error.None? <==> Succeeds(x.store, reload))
  {
    match x.result
    case Err(m) => TaskStep(s.(error := Some(failure)), x.store, x.sent, Some(m))
    case Ok(_) =>
      var l := LoadTasks(s.(error := None), auth, x.store, reload);
      TaskStep(l.state, l.store, x.sent + l.sent, None)
  }

  /** `createTask`: the draft is posted as given; on success the list is
      reloaded rather than patched, on failure it is left as it was. */
  function CreateTask(s: TaskState, auth: AuthState, store: Storage, draft: TaskDraft,
                      d: Delivery<TaskBody>, reload: Delivery<TasksBody>): (r: TaskStep)
    ensures r.thrown.None? <==> Succeeds(store, d)
    ensures !IsAuthenticated(store) ==> r == TaskStep(s.(error := Some(CreateFailed)), store, [], Some(AuthRequired))
    ensures r.thrown.Some? ==> r.state == s.(error := Some(CreateFailed))
    ensures r.thrown.Some? ==> r.store == StoreAfterFailure(store, d) && r.thrown == Some(FailureMessage(store, d))
    ensures r.thrown.Some? ==> r.sent == (if IsAuthenticated(store) then [Request(Post, "/tasks", AuthHeader(store), NewTask(draft))] else [])
    ensures r.thrown.None? ==>
      var l := LoadTasks(s.(error := None), auth, store, reload);
      && r.state == l.state
      && r.sent == [Request(Post, "/tasks", AuthHeader(store), NewTask(draft))] + l.sent
      && r.store == l.store
  {
    WriteThenRefetch(s, auth, Api.CreateTask(store, draft, d), CreateFailed, reload)
  }

  /** `updateTask`: sends only the fields of the patch; reloads on success. */
  function UpdateTask(s: TaskState, auth: AuthState, store: Storage, id: string, patch: TaskPatch,
                      d: Delivery<TaskBody>, reload: Delivery<TasksBody>): (r: TaskStep)
    ensures r.thrown.None? <==> Succeeds(store, d)
    ensures !IsAuthenticated(store) ==> r == TaskStep(s.(error := Some(UpdateFailed)), store, [], Some(AuthRequired))
    ensures r.thrown.Some? ==> r.state == s.(error := Some(UpdateFailed))
    ensures r.thrown.Some? ==> r.store == StoreAfterFailure(store, d) && r.thrown == Some(FailureMessage(store, d))
    ensures r.thrown.Some? ==> r.sent == (if IsAuthenticated(store) then [Request(Put, "/tasks/" + id, AuthHeader(store), TaskChanges(patch))] else [])
    ensures r.thrown.None? ==>
      var l := LoadTasks(s.(error := None), auth, store, reload);
      && r.state == l.state
      && r.sent == [Request(Put, "/tasks/" + id, AuthHeader(store), TaskChanges(patch))] + l.sent
      && r.store == l.store
  {
    WriteThenRefetch(s, auth, Api.UpdateTask(store, id, patch, d), UpdateFailed, reload)
  }

  /** `deleteTask`: the deleted task disappears only through the reload. */
  function DeleteTask(s: TaskState, auth: AuthState, store: Storage, id: string,
                      d: Delivery<()>, reload: Delivery<TasksBody>): (r: TaskStep)
    ensures r.thrown.None? <==> Succeeds(store, d)
    ensures !IsAuthenticated(store) ==> r == TaskStep(s.(error := Some(DeleteFailed)), store, [], Some(AuthRequired))
    ensures r.thrown.Some? ==> r.state == s.(error := Some(DeleteFailed))
    ensures r.thrown.Some? ==> r.store == StoreAfterFailure(store, d) && r.thrown == Some(FailureMessage(store, d))
    ensures r.thrown.Some? ==> r.sent == (if IsAuthenticated(store) then [Request(Delete, "/tasks/" + id, AuthHeader(store), NoBody)] else [])
    ensures r.thrown.None? ==>
      var l := LoadTasks(s.(error := None), auth, store, reload);
      && r.state == l.state
      && r.sent == [Request(Delete, "/tasks/" + id, AuthHeader(store), NoBody)] + l.sent
      && r.store == l.store
  {
    WriteThenRefetch(s, auth, Api.DeleteTask(store, id, d), DeleteFailed, reload)
  }

  /** Nothing is merged locally: after a successful create the store holds
      whatever the reload brought, so it is the same whichever draft was
      posted, and when the reload is skipped (session not ready) the list is
      exactly what it was. */
  lemma NoLocalPatch(s: TaskState, auth: AuthState, store: Storage, draft: TaskDraft, other: TaskDraft,
                     d: Delivery<TaskBody>, reload: Delivery<TasksBody>)
    requires Succeeds(store, d)
    ensures CreateTask(s, auth, store, draft, d, reload).state == CreateTask(s, auth, store, other, d, reload).state
    ensures !Ready(auth) ==> CreateTask(s, auth, store, draft, d, reload).state == s.(error := None)
  {
  }

  function SetFilter(s: TaskState, f: StatusFilter): (r: TaskState)
    ensures r.filter == f
    ensures r.tasks == s.tasks && r.loading == s.loading && r.error == s.error
    ensures r.searchQuery == s.searchQuery && r.categoryFilter == s.categoryFilter
  {
    s.(filter := f)
  }

  function SetSearch(s: TaskState, q: string): (r: TaskState)
    ensures r.searchQuery == q
    ensures r.tasks == s.tasks && r.loading == s.loading && r.error == s.error
    ensures r.filter == s.filter && r.categoryFilter == s.categoryFilter
  {
    s.(searchQuery := q)
  }

  function SetCategoryFilter(s: TaskState, c: Option<string>): (r: TaskState)
    ensures r.categoryFilter == c
    ensures r.tasks == s.tasks && r.loading == s.loading && r.error == s.error
    ensures r.filter == s.filter && r.searchQuery == s.searchQuery
  {
    s.(categoryFilter := c)
  }

  /** Stage 1: `all` leaves the list alone, the other views keep their statuses. */
  function StatusStage(ts: seq<Task>, f: StatusFilter): seq<Task> {
    if f == ShowAll then ts else Select(ts, StatusIn(f))
  }

  /** The search applies only to a query that is not blank. */
  predicate SearchApplies(q: string) {
    Trim(q) != []
  }

  /** The query as compared: lower-cased, then trimmed. */
  function Query(q: string): string {
    Trim(ToLower(q))
  }

  /** Stage 2: the case-insensitive search over title and description. */
  function SearchStage(ts: seq<Task>, q: string): seq<Task> {
    if SearchApplies(q) then Select(ts, Mentions(Query(q))) else ts
  }

  /** Stage 3: a truthy category filter keeps that exact category. */
  function CategoryStage(ts: seq<Task>, c: Option<string>): seq<Task> {
    if Truthy(c) then Select(ts, InCategory(c.value)) else ts
  }

  /** `filteredTasks`: status, then search, then category. */
  function FilteredTasks(s: TaskState): (r: seq<Task>)
    ensures |r| <= |s.tasks|
    ensures forall t :: t in r ==> t in s.tasks
  {
    CategoryStage(SearchStage(StatusStage(s.tasks, s.filter), s.searchQuery), s.categoryFilter)
  }

  /** The three stages as one criterion: the conjunction of the active ones. */
  function Criteria(s: TaskState): Criterion {
    Both(
      Both(StatusIn(s.filter), if SearchApplies(s.searchQuery) then Mentions(Query(s.searchQuery)) else Any),
      if Truthy(s.categoryFilter) then InCategory(s.categoryFilter.value) else Any)
  }

  /** The staged pipeline is a single filter by the conjunction of its stages. */
  lemma FilteredIsOneSelection(s: TaskState)
    ensures FilteredTasks(s) == Select(s.tasks, Criteria(s))
  {
    var search := if SearchApplies(s.searchQuery) then Mentions(Query(s.searchQuery)) else Any;
    var category := if Truthy(s.categoryFilter) then InCategory(s.categoryFilter.value) else Any;
    var stage1 := Select(s.tasks, StatusIn(s.filter));
    if s.filter == ShowAll {
      SelectKeepsAll(s.tasks, StatusIn(ShowAll));
    }
    assert StatusStage(s.tasks, s.filter) == stage1;
    SelectAny(stage1);
    SelectTwice(s.tasks, StatusIn(s.filter), search);
    var stage2 := Select(stage1, search);
    assert SearchStage(stage1, s.searchQuery) == stage2;
    SelectAny(stage2);
    SelectTwice(s.tasks, Both(StatusIn(s.filter), search), category);
  }

  /** What the combined criterion asks of one task. */
  lemma CriteriaHolds(s: TaskState, t: Task)
    ensures Holds(Criteria(s), t) <==>
      && Holds(StatusIn(s.filter), t)
      && (SearchApplies(s.searchQuery) ==> MatchesQuery(t, Query(s.searchQuery)))
      && (Truthy(s.categoryFilter) ==> t.category == s.categoryFilter)
  {
    SearchHolds(SearchApplies(s.searchQuery), Query(s.searchQuery), t);
    CategoryHolds(s.categoryFilter, t);
  }

  /** The search stage's criterion, for a given query and whether it applies. */
  lemma SearchHolds(applies: bool, query: string, t: Task)
    ensures Holds(if applies then Mentions(query) else Any, t) <==> (applies ==> MatchesQuery(t, query))
  {
  }

  /** The category stage's criterion. */
  lemma CategoryHolds(c: Option<string>, t: Task)
    ensures Holds(if Truthy(c) then InCategory(c.value) else Any, t) <==> (Truthy(c) ==> t.category == c)
  {
  }

  /** A task is shown exactly when it is held and passes every active stage. */
  lemma FilteredMembership(s: TaskState, t: Task)
    ensures t in FilteredTasks(s) <==>
      && t in s.tasks
      && Holds(StatusIn(s.filter), t)
      && (SearchApplies(s.searchQuery) ==> MatchesQuery(t, Query(s.searchQuery)))
      && (Truthy(s.categoryFilter) ==> t.category == s.categoryFilter)
  {
    FilteredIsOneSelection(s);
    CriteriaHolds(s, t);
    assert t in Select(s.tasks, Criteria(s)) <==> t in s.tasks && Holds(Criteria(s), t);
  }

  /** The view is an order-preserving subsequence of the held tasks: the
      tasks at exactly the positions that pass, in their original order. */
  lemma FilteredKeepsOrder(s: TaskState) returns (idx: seq<nat>)
    ensures PicksAt(FilteredTasks(s), s.tasks, idx)
    ensures forall i :: 0 <= i < |s.tasks| ==> (i in idx <==> Holds(Criteria(s), s.tasks[i]))
  {
    FilteredIsOneSelection(s);
    idx := SelectPositions(s.tasks, Criteria(s));
  }

  /** With no search and no category, the `active` and `completed` views
      split the tasks: each task lies in exactly one of them. */
  lemma StatusViewsPartition(s: TaskState)
    requires !SearchApplies(s.searchQuery) && !Truthy(s.categoryFilter)
    ensures var active := FilteredTasks(s.(filter := ShowActive));
      var completed := FilteredTasks(s.(filter := ShowCompleted));
      && multiset(active) + multiset(completed) == multiset(s.tasks)
      && |active| + |completed| == |s.tasks|
      && (forall t :: t in active ==> t !in completed)
  {
    var a, c := Select(s.tasks, StatusIn(ShowActive)), Select(s.tasks, StatusIn(ShowCompleted));
    assert FilteredTasks(s.(filter := ShowActive)) == a;
    assert FilteredTasks(s.(filter := ShowCompleted)) == c;
    SelectSplits(s.tasks, StatusIn(ShowActive), StatusIn(ShowCompleted));
  }

  /** The default filter state shows every task as held. */
  lemma DefaultViewShowsAll(s: TaskState)
    requires s.filter == ShowAll && !SearchApplies(s.searchQuery) && !Truthy(s.categoryFilter)
    ensures FilteredTasks(s) == s.tasks
  {
  }

  /** Queries that differ only in letter case show the same tasks. */
  lemma SearchIgnoresCase(s: TaskState, q1: string, q2: string)
    requires ToLower(q1) == ToLower(q2)
    ensures FilteredTasks(s.(searchQuery := q1)) == FilteredTasks(s.(searchQuery := q2))
  {
    LowerTrimCommute(q1);
    LowerTrimCommute(q2);
    assert SearchApplies(q1) <==> SearchApplies(q2) by {
      assert Trim(q1) == [] <==> ToLower(Trim(q1)) == [];
      assert Trim(q2) == [] <==> ToLower(Trim(q2)) == [];
    }
  }

  /** Spaces around the typed query change nothing: the search trims it. */
  lemma SearchIgnoresSurroundingSpace(s: TaskState, q: string)
    ensures FilteredTasks(s.(searchQuery := q)) == FilteredTasks(s.(searchQuery := Trim(q)))
  {
    TrimIdempotent(q);
    assert Query(Trim(q)) == Query(q) by {
      LowerTrimCommute(q);
      TrimIdempotent(ToLower(q));
    }
  }

  /** A truthy category filter shows only that category, and every task of
      that category that passes the other stages. */
  lemma CategoryFilterIsExact(s: TaskState, t: Task)
    requires Truthy(s.categoryFilter)
    requires t in s.tasks && Holds(StatusIn(s.filter), t)
    requires SearchApplies(s.searchQuery) ==> MatchesQuery(t, Query(s.searchQuery))
    ensures t in FilteredTasks(s) <==> t.category == s.categoryFilter
  {
    FilteredMembership(s, t);
  }
}

=== FILE: text.dfy ===
/**
 The string operations the client relies on, restricted to ASCII:
 `String.prototype.trim`, `String.prototype.toLowerCase`,
 `String.prototype.includes` and the decimal rendering of an HTTP status code
 inside a template literal.
 */
module Text {

  /** The ASCII whitespace that `trim` removes: space, tab, line feed,
      carriage return, vertical tab and form feed. */
  predicate IsSpace(c: char) {
    c == ' ' || c == '\t' || c == '\n' || c == '\r' || c == '\U{000B}' || c == '\U{000C}'
  }

  ghost predicate OnlySpaces(s: string) {
    forall k :: 0 <= k < |s| ==> IsSpace(s[k])
  }

  /** The first position at or after `i` that does not hold whitespace
      (or `|s|`): where a scan forward from `i` stops. */
  function SkipForward(s: string, i: nat): (j: nat)
    requires i <= |s|
    ensures i <= j <= |s|
    ensures forall k :: i <= k < j ==> IsSpace(s[k])
    ensures j < |s| ==> !IsSpace(s[j])
    decreases |s| - i
  {
    if i < |s| && IsSpace(s[i]) then SkipForward(s, i + 1) else i
  }

  /** The start of the whitespace run that ends just before `j`: where a
      scan backward from `j` stops. */
  function SkipBackward(s: string, j: nat): (i: nat)
    requires j <= |s|
    ensures i <= j
    ensures forall k :: i <= k < j ==> IsSpace(s[k])
    ensures i > 0 ==> !IsSpace(s[i - 1])
    decreases j
  {
    if j > 0 && IsSpace(s[j - 1]) then SkipBackward(s, j - 1) else j
  }

  /** A backward scan never passes a non-space character. */
  lemma {:induction false} SkipBackwardStops(s: string, i: nat, j: nat)
    requires i < j <= |s| && !IsSpace(s[i])
    ensures i < SkipBackward(s, j)
    decreases j
  {
    if IsSpace(s[j - 1]) {
      SkipBackwardStops(s, i, j - 1);
    }
  }

  /** `s.trim()`: `s` without its leading and trailing whitespace. */
  function Trim(s: string): (r: string)
    ensures |r| <= |s|
    ensures r == [] <==> OnlySpaces(s)
    ensures r != [] ==> !IsSpace(r[0]) && !IsSpace(r[|r| - 1])
  {
    var i := SkipForward(s, 0);
    if i == |s| then []
    else
      SkipBackwardStops(s, i, |s|);
      s[i..SkipBackward(s, |s|)]
  }

  /** A string holding a non-space character trims to what lies between
      its leading and its trailing whitespace. */
  lemma TrimInner(s: string)
    requires SkipForward(s, 0) < |s|
    ensures SkipForward(s, 0) < SkipBackward(s, |s|)
    ensures Trim(s) == s[SkipForward(s, 0)..SkipBackward(s, |s|)]
  {
    SkipBackwardStops(s, SkipForward(s, 0), |s|);
  }

  /** A slice lying inside a whitespace run is all whitespace. */
  lemma SpacesSlice(s: string, i: nat, j: nat)
    requires i <= j <= |s|
    requires forall k :: i <= k < j ==> IsSpace(s[k])
    ensures OnlySpaces(s[i..j])
  {
    forall k | 0 <= k < j - i ensures IsSpace(s[i..j][k]) {
      assert s[i..j][k] == s[i + k];
    }
  }

  lemma SplitThree(s: string, i: nat, j: nat)
    requires i <= j <= |s|
    ensures s == s[0..i] + s[i..j] + s[j..|s|]
  {
    assert s[0..j] == s[0..i] + s[i..j];
    assert s == s[0..j] + s[j..|s|];
  }

  /** The trimmed string is what remains of `s` once a run of whitespace is
      cut from each end; the two runs are returned. */
  lemma TrimSplit(s: string) returns (before: string, after: string)
    ensures s == before + Trim(s) + after
    ensures OnlySpaces(before) && OnlySpaces(after)
  {
    if SkipForward(s, 0) == |s| {
      before, after := s, [];
      assert s == before + [] + after;
    } else {
      before, after := TrimSplitInner(s);
    }
  }

  lemma TrimSplitInner(s: string) returns (before: string, after: string)
    requires SkipForward(s, 0) < |s|
    ensures s == before + Trim(s) + after
    ensures OnlySpaces(before) && OnlySpaces(after)
  {
    var i := SkipForward(s, 0);
    TrimInner(s);
    var j := SkipBackward(s, |s|);
    before, after := s[0..i], s[j..|s|];
    SpacesSlice(s, 0, i);
    SpacesSlice(s, j, |s|);
    SplitThree(s, i, j);
  }

  /** Trimming twice removes nothing more than trimming once. */
  lemma TrimIdempotent(s: string)
    ensures Trim(Trim(s)) == Trim(s)
  {
    var t := Trim(s);
    if t != [] {
      assert SkipForward(t, 0) == 0;
      assert SkipBackward(t, |t|) == |t|;
      assert t[0..|t|] == t;
    }
  }

  predicate IsUpper(c: char) {
    'A' <= c <= 'Z'
  }

  /** `toLowerCase` on one ASCII character. */
  function LowerChar(c: char): (d: char)
    ensures !IsUpper(d)
    ensures IsSpace(d) == IsSpace(c)
    ensures IsUpper(c) ==> d as int == c as int + 32
    ensures !IsUpper(c) ==> d == c
  {
    if IsUpper(c) then (c as int + 32) as char else c
  }

  /** `s.toLowerCase()`, ASCII letters only. */
  function ToLower(s: string): (r: string)
    ensures |r| == |s|
    ensures forall k :: 0 <= k < |s| ==> r[k] == LowerChar(s[k])
  {
    seq(|s|, k requires 0 <= k < |s| => LowerChar(s[k]))
  }

  /** A lower-cased string has nothing left to lower. */
  lemma LowerIdempotent(s: string)
    ensures ToLower(ToLower(s)) == ToLower(s)
  {
  }

  /** Lowering never turns a space into a non-space or back, so scans stop
      at the same positions. */
  lemma {:induction false} LowerKeepsSkipForward(s: string, i: nat)
    requires i <= |s|
    ensures SkipForward(ToLower(s), i) == SkipForward(s, i)
    decreases |s| - i
  {
    if i < |s| && IsSpace(s[i]) {
      LowerKeepsSkipForward(s, i + 1);
    }
  }

  lemma {:induction false} LowerKeepsSkipBackward(s: string, j: nat)
    requires j <= |s|
    ensures SkipBackward(ToLower(s), j) == SkipBackward(s, j)
    decreases j
  {
    if j > 0 && IsSpace(s[j - 1]) {
      LowerKeepsSkipBackward(s, j - 1);
    }
  }

  /** Lowering a slice is slicing the lowered string. */
  lemma LowerSlice(s: string, i: nat, j: nat)
    requires i <= j <= |s|
    ensures ToLower(s)[i..j] == ToLower(s[i..j])
  {
  }

  /** `s.toLowerCase().trim()` and `s.trim().toLowerCase()` agree. */
  lemma LowerTrimCommute(s: string)
    ensures Trim(ToLower(s)) == ToLower(Trim(s))
  {
    var t := ToLower(s);
    LowerKeepsSkipForward(s, 0);
    LowerKeepsSkipBackward(s, |s|);
    if SkipForward(s, 0) < |s| {
      TrimInner(s);
      TrimInner(t);
      LowerSlice(s, SkipForward(s, 0), SkipBackward(s, |s|));
    }
  }

  /** `q` occurs in `s` starting at position `i`. */
  ghost predicate OccursAt(s: string, q: string, i: int) {
    0 <= i && i + |q| <= |s| && s[i..i + |q|] == q
  }

  /** `s.includes(q)`, searching left to right. */
  predicate Contains(s: string, q: string)
    decreases |s|
  {
    if |q| > |s| then false
    else if q <= s then true
    else Contains(s[1..], q)
  }

  /** The search finds `q` exactly when `q` occurs somewhere in `s`. */
  lemma {:induction false} ContainsIff(s: string, q: string)
    ensures Contains(s, q) <==> exists i :: OccursAt(s, q, i)
    decreases |s|
  {
    if |q| > |s| {
      forall i | OccursAt(s, q, i) ensures false {
      }
    } else if q <= s {
      assert s[0..|q|] == q;
      assert OccursAt(s, q, 0);
    } else {
      ContainsIff(s[1..], q);
      if Contains(s[1..], q) {
        var i :| OccursAt(s[1..], q, i);
        assert s[i + 1..i + 1 + |q|] == s[1..][i..i + |q|];
        assert OccursAt(s, q, i + 1);
      } else {
        forall i | OccursAt(s, q, i) ensures false {
          if i != 0 {
            forall k | i <= k < i + |q|
              ensures s[1..][k - 1] == s[k]
            {
            }
            assert s[1..][i - 1..i - 1 + |q|] == s[i..i + |q|];
            assert OccursAt(s[1..], q, i - 1);
          }
        }
      }
    }
  }

  predicate IsDigit(c: char) {
    '0' <= c <= '9'
  }

  function DigitChar(d: nat): (c: char)
    requires d < 10
    ensures IsDigit(c)
    ensures c as int - '0' as int == d
  {
    ('0' as int + d) as char
  }

  /** The decimal numeral of `n`, as `${n}` renders a non-negative integer. */
  function Decimal(n: nat): (r: string)
    ensures |r| >= 1
    ensures forall k :: 0 <= k < |r| ==> IsDigit(r[k])
    ensures |r| > 1 ==> r[0] != '0'
    decreases n
  {
    if n < 10 then [DigitChar(n)] else Decimal(n / 10) + [DigitChar(n % 10)]
  }

  /** The value of a string of decimal digits. */
  function DecimalValue(s: string): nat
    requires forall k :: 0 <= k < |s| ==> IsDigit(s[k])
  {
    if |s| == 0 then 0
    else 10 * DecimalValue(s[..|s| - 1]) + DigitValue(s[|s| - 1])
  }

  function DigitValue(c: char): (d: nat)
    requires IsDigit(c)
    ensures d < 10
  {
    c as int - '0' as int
  }

  /** Reading the numeral back gives the number: `Decimal` loses nothing. */
  lemma {:induction false} DecimalRoundTrip(n: nat)
    ensures DecimalValue(Decimal(n)) == n
    decreases n
  {
    if n >= 10 {
      var r := Decimal(n);
      assert r[..|r| - 1] == Decimal(n / 10);
      DecimalRoundTrip(n / 10);
    }
  }

  /** Different numbers are rendered as different numerals. */
  lemma DecimalInjective(m: nat, n: nat)
    requires m != n
    ensures Decimal(m) != Decimal(n)
  {
    DecimalRoundTrip(m);
    DecimalRoundTrip(n);
  }
}

=== FILE: types.dfy ===
/**
 The records the client exchanges with the backend (src/types/index.ts and
 the session shape in src/services/api.ts). Timestamps and identifiers are
 opaque strings; nothing in the client interprets them.
 */
module Types {
  import opened Outcomes

  datatype Status = Pending | InProgress | Completed | Cancelled

  datatype Priority = Low | Medium | High

  datatype Task = Task(
    id: string,
    userId: string,
    title: string,
    description: Option<string>,
    status: Status,
    priority: Priority,
    dueDate: Option<string>,
    category: Option<string>,
    createdAt: string,
    updatedAt: string)

  /** Categories are referenced from a task by `name`, not by `id`. */
  datatype Category = Category(id: string, userId: string, name: string, createdAt: string, updatedAt: string)

  datatype User = User(id: string, email: string, createdAt: Option<string>, updatedAt: Option<string>)

  datatype Session = Session(accessToken: string, refreshToken: string, expiresAt: int)

  /** The status views a task list can be narrowed to: `'all' | 'active' | 'completed'`. */
  datatype StatusFilter = ShowAll | ShowActive | ShowCompleted

  /** The value of the `filter` prop for a view. */
  function FilterName(f: StatusFilter): string {
    match f
    case ShowAll => "all"
    case ShowActive => "active"
    case ShowCompleted => "completed"
  }

  /** The wire name of a priority, as the priority `<select>` offers it. */
  function PriorityName(p: Priority): string {
    match p
    case Low => "low"
    case Medium => "medium"
    case High => "high"
  }

  /** The priority a wire name denotes; any other string denotes none. */
  function ParsePriority(s: string): (p: Option<Priority>)
    ensures p.Some? <==> s in {"low", "medium", "high"}
    ensures p.Some? ==> PriorityName(p.value) == s
  {
    if s == "low" then Some(Low)
    else if s == "medium" then Some(Medium)
    else if s == "high" then Some(High)
    else None
  }

  /** Every priority survives the round trip through its wire name. */
  lemma PriorityRoundTrip(p: Priority)
    ensures ParsePriority(PriorityName(p)) == Some(p)
  {
  }
}
